=== FILE: README.md ===
# Fanatique wagering core in Dafny

This project models the off-chain wagering core of the Fanatique backend. That core has three parts:
- a **chips ledger**: one balance row per user, created lazily, and an append-only transaction log;
- a **bet lifecycle** with the statuses `pending | won | lost | cancelled | refunded`, together with leg rows and a status history;
- the **controller operations** that move bets and chips together inside one database transaction: placing a bet debits the stake; cancelling refunds it; an administrator's settlement credits the payout or the stake.

The small catalogue store (markets and their options) and the user store are also modelled.

Each service is a class that owns its tables as fields (`map`s and `seq`s). Every method is proved against pure functions on those tables:
- `Created` and `ApplyUpdate` for bets;
- `ApplyTransaction` and `WithBalanceRow` for the ledger.

The invariants kept are:
- `ValidBets`: ids are in range, and every bet's total odds agree with the odds of its stored legs.
- `ValidLedger`: rows are numbered in order; each row moves its user's balance by its amount; each balance row holds its user's net, credits and debits in the log.
- `Odds.OddsService.Valid`: market names are unique, and every option belongs to a stored market.
- `Users.UserService.Valid`: user ids follow creation order.

Modelling choices:
- Amounts and odds are `real`, so the 0.01 margins of the odds and payout checks are exact inequalities.
- JavaScript truthiness is written out: an id counts as given when it is non-zero, a text when it is non-empty.
- The clock is a `now` parameter.
- The database procedure `ProcessChipsTransaction` is not visible. Its effect when it accepts a request is the *assumed* function `Chips.ApplyTransaction`. Whether it accepts is a boolean parameter, `procedureAccepts`.
- A rollback is modelled by saving both stores' tables when the transaction starts and restoring them on failure.

Module layout:

| file | module | source |
|---|---|---|
| common.dfy | `Common` | shared `Option`, `Result`, error kinds, truthiness |
| bet_types.dfy, chips_types.dfy | `BetTypes`, `ChipsTypes` | `backend/src/types/userBet.ts`, `backend/src/types/userChips.ts` |
| bet_rules.dfy | `BetRules` | the pure checks and table effects of `backend/src/services/UserBet.service.ts` |
| bets.dfy | `Bets` | class `UserBetService` |
| chips.dfy | `Chips` | ledger specification and class `UserChipsService` |
| settlement.dfy | `Settlement` | class `UserBetController` |
| odds.dfy, users.dfy | `Odds`, `Users` | `OddsService`, `UserService` |
| scenarios.dfy | `Scenarios` | worked runs of the controller |

## Behaviour kept as the code has it

In several places the code gives weaker guarantees than a wagering ledger is usually expected to give. In each case the model follows the code, and the behaviour is stated as a lemma or a contract.

- **Settled bets can be reopened.** A settled bet (won, lost, cancelled or refunded) is usually taken to be final, but `updateBet` has no guard on the source status: a settled bet can be moved back to `pending`, and the move is recorded in the history (`BetRules.UpdateReopensSettledBet`).
  - The owner's update path can also change the status of the owner's own bet. It has no ledger effect (`Settlement.UserBetController.UpdateBet`).
- **A reopened bet pays out again.** A bet would be expected to pay out at most once, but the administrator's won-credit is guarded only by "the old status is not won". So won → pending → won credits the payout twice:
  - `Settlement.EveryReopeningPaysAgain` and `Settlement.WonPendingWonPaysTwice` prove it for the credit function;
  - `Scenarios.ReopenedBetPaidTwice` runs it through the controller.
  - Without a reopening there is at most one payout (`Settlement.PayoutAtMostOnceUnlessReopened`).
- **Bet creation checks less than a placement might be expected to.** Every new bet would be expected to start pending, but `createBet` honours a status sent by the caller; the controller never sends one.
  - The caller's status is stored as the bet's status (`BetRules.Created`).
  - Leg odds are not sign-checked (`BetRules.NegativeLegsAccepted`).
  - The options a bet refers to are not looked up: an inactive option is accepted. Whether an unknown option is refused depends on foreign-key rules that are not visible.
- **A zero amount reaches the ledger procedure.** `processTransaction` accepts an amount of zero. Only `addChips`/`removeChips` refuse amounts ≤ 0.
- **The balance pre-check runs outside the transaction.** A placement that fails later still leaves the user's lazily created zero balance row behind.

## Model

| member | source | states |
|---|---|---|
| BetRules.ValidateBet | backend/src/services/UserBet.service.ts:22-50 | creation passes exactly for bets with ids, positive amounts, at least one leg, a type matching the leg count, legs multiplying to the total odds within 0.01 and stake × odds within 0.01 of the payout; a failing payload gets the error of the first check it fails, in the code's order (user id, match id, stake, payout, odds, type, legs, single/multiple leg count, odds product, payout) |
| BetRules.ProductConcat | backend/src/services/UserBet.service.ts:39 | the product of the leg odds splits over any split of the legs |
| BetRules.ProductOrderInsensitive | backend/src/services/UserBet.service.ts:39-43 | swapping two groups of legs does not change the odds check |
| BetRules.AcceptedTypeMatchesLegs | backend/src/services/UserBet.service.ts:27-36 | an accepted bet is `single` exactly when it has one leg |
| BetRules.NegativeLegsAccepted | backend/src/services/UserBet.service.ts:22-43 | legs with negative odds whose product matches the total are accepted |
| BetRules.Created | backend/src/services/UserBet.service.ts:52-65 | creation adds one bet under the next id, holding the payload's user, match, stake, odds and payout, unsettled, with the parsed type and the payload's hash and notes; its status is the caller's status, or pending when none is sent; other bets are untouched; the payload's legs are appended in order; one history row for the new bet records a null old status, the stored status, no author and the reason "Aposta criada" |
| BetRules.CreatedValid | backend/src/services/UserBet.service.ts:52-65 | creation keeps every stored bet consistent with its stored legs |
| BetRules.Columns | backend/src/services/UserBet.service.ts:114-139 | nothing is written exactly when the update has no effect; the status is written only when it differs from the current one, and `settled_at` exactly with a settling status; a payout, a non-empty hash and a note are written when supplied |
| BetRules.ApplyPatch | backend/src/database/UserBet.database.ts:246-257 | the UPDATE sets exactly the columns present in the patch to their values; every other column of the bet keeps its stored value |
| BetRules.Updated | backend/src/services/UserBet.service.ts:114-135 | an update never changes a bet's id, owner, stake, odds, payout or type; a named status is the new status; a sent result payout and sent notes are written, a non-empty hash is written, and anything not sent keeps its stored value |
| BetRules.ApplyUpdate | backend/src/services/UserBet.service.ts:141-152 | the bet becomes `Updated`, and other bets are untouched; one history row for that bet, from the prior status to the requested one, naming the admin and the notes (or "Status alterado para" and the status) as reason, is appended exactly when the status changes |
| BetRules.UpdateValid | backend/src/services/UserBet.service.ts:141 | an update keeps every stored bet consistent with its legs |
| BetRules.SettlingStampsTime | backend/src/services/UserBet.service.ts:116-123 | a move into won, lost, cancelled or refunded sets `settled_at` to now; anything else leaves it |
| BetRules.UpdateReopensSettledBet | backend/src/services/UserBet.service.ts:116-123 | a settled bet can be moved back to pending, and the move is recorded |
| BetRules.RepeatedStatusRequest | backend/src/services/UserBet.service.ts:116-139 | repeating a status request writes no second history row, and a bare repeat has nothing to write |
| BetRules.CancelNote | backend/src/services/UserBet.service.ts:172 | the cancellation note is never empty |
| BetRules.CancelFromPending | backend/src/services/UserBet.service.ts:162-174 | cancelling a pending bet makes it cancelled and settled now, with the note, and appends one history row pending → cancelled |
| BetRules.GradedDetails | backend/src/services/UserBet.service.ts:155-160 | grading marks exactly the legs of that bet and option, and leaves every bet's leg odds unchanged |
| Bets.UserBetService.CreateBet | backend/src/services/UserBet.service.ts:20-68 | fails with the validation error and writes nothing, or writes exactly `Created` and keeps the tables valid |
| Bets.UserBetService.FetchBet | backend/src/services/UserBet.service.ts:70-81 | missing id refused; unknown bet is null; another user's bet is refused only when a user id is given |
| Bets.UserBetService.UpdateBet | backend/src/services/UserBet.service.ts:107-153 | succeeds exactly for a visible bet and an update with something to write; otherwise the given error and no change; on success the tables are `ApplyUpdate` |
| Bets.UserBetService.CancelBet | backend/src/services/UserBet.service.ts:162-174 | succeeds exactly from pending and leaves the bet cancelled with one more history row; a non-pending bet is refused with no change |
| Bets.UserBetService.DeleteBet | backend/src/services/UserBet.service.ts:176-186 | removes the bet exactly when it is pending or cancelled, and nothing else |
| Bets.UserBetService.UpdateBetResult | backend/src/services/UserBet.service.ts:155-160 | with both ids given, grades the matching legs and nothing else |
| Chips.NetIsEarnedLessSpent | backend/src/types/userChips.ts:1-23 | a user's net in the log is their credits less their debits |
| Chips.SumsOfAbsentUser | backend/src/database/UserChips.database.ts:22-27 | a user without log rows has zero net, credits and debits |
| Chips.BalanceIsEarnedLessSpent | backend/src/types/userChips.ts:1-9 | in a valid ledger every balance equals total earned less total spent |
| Chips.WithBalanceRow | backend/src/services/UserChips.service.ts:22-32 | first access adds the user's row and changes no other row or the log |
| Chips.WithBalanceRowValid | backend/src/database/UserChips.database.ts:22-27 | the lazily created zero row agrees with the log |
| Chips.ApplyTransaction | backend/src/database/UserChips.database.ts:47-63 | (assumed) one row appended with the request's user, amount, type and reference (a falsy reference stored as null), balance before = prior balance (zero if none) and after = before + amount; only that user's balance moves, by the amount |
| Chips.ApplyTransactionValid | backend/src/database/UserChips.database.ts:47-63 | the assumed step keeps the balances in agreement with the log |
| Chips.CreditRequest | backend/src/services/UserChips.service.ts:76-86 | a credit is refused exactly when the amount is ≤ 0, and otherwise forwards the amount unchanged, strictly positive |
| Chips.DebitRequest | backend/src/services/UserChips.service.ts:99-110 | a debit is refused exactly when the amount is ≤ 0, and otherwise forwards the negated amount, strictly negative |
| Chips.CreditThenDebitRestoresBalance | backend/src/services/UserChips.service.ts:67-111 | a debit of the amount just credited restores the balance and leaves two rows |
| Chips.RowsWithReference | backend/src/database/UserChips.database.ts:96-103 | exactly the log rows carrying the reference are returned, each once, newest first (ids strictly falling over a log whose ids grow) |
| Chips.UserChipsService.GetUserBalance | backend/src/services/UserChips.service.ts:19-35 | falsy id refused; otherwise a balance row is always returned (created at zero if absent), equal to the user's net in the log |
| Chips.UserChipsService.GetTransactionById | backend/src/services/UserChips.service.ts:43-53 | returns the row with that id, or registryNotFound exactly when no row has it |
| Chips.UserChipsService.ProcessTransaction | backend/src/services/UserChips.service.ts:55-65 | refuses a falsy user, a missing amount or a missing type (zero accepted); on success the tables are `ApplyTransaction` and the new balance is returned |
| Chips.UserChipsService.AddChips | backend/src/services/UserChips.service.ts:67-87 | succeeds exactly for a positive amount, a given user and an accepting procedure; the balance rises by the amount |
| Chips.UserChipsService.RemoveChips | backend/src/services/UserChips.service.ts:89-111 | as `AddChips`, with the balance falling by the amount |
| Chips.UserChipsService.GetTransactionsByReference | backend/src/services/UserChips.service.ts:139-147 | both reference parts are required; the answer is every row carrying the reference, each once, newest first |
| Settlement.Placement | backend/src/controllers/UserBet.controller.ts:30-41 | the placement payload carries the session's user and no status |
| Settlement.SettlementCredit | backend/src/controllers/UserBet.controller.ts:259-282 | a credit is due exactly on a move into won (the result payout, or the potential payout when that is absent or zero, as bet_won) or into refunded (the stake, as other); at most one, and none for pending, lost or cancelled |
| Settlement.WonPayoutsConcat | backend/src/controllers/UserBet.controller.ts:260 | payouts over two runs of updates add up |
| Settlement.NoPayoutWhileWon | backend/src/controllers/UserBet.controller.ts:260 | updates to won on a bet that is already won pay nothing |
| Settlement.PayoutAtMostOnceUnlessReopened | backend/src/controllers/UserBet.controller.ts:260-271 | a run in which a won bet never leaves won pays out at most once |
| Settlement.EveryReopeningPaysAgain | backend/src/controllers/UserBet.controller.ts:260-271 | after a won bet is set to pending and then to won, one more payout is made |
| Settlement.WonPendingWonPaysTwice | backend/src/controllers/UserBet.controller.ts:260-271 | pending → won → pending → won pays twice |
| Settlement.UserBetController.CreateBet | backend/src/controllers/UserBet.controller.ts:26-79 | succeeds exactly when the balance covers the stake and the bet is valid; then one bet is created pending and exactly the stake is debited as bet_placed with reference ('bet', id), leaving a non-negative balance; on failure no bet or ledger row survives |
| Settlement.UserBetController.CancelBet | backend/src/controllers/UserBet.controller.ts:157-199 | a non-pending bet is refused with no effect; otherwise the bet becomes cancelled and exactly the stake is credited as other with reference ('bet', id); any failure leaves both stores unchanged |
| Settlement.UserBetController.UpdateBet | backend/src/controllers/UserBet.controller.ts:131-155 | the owner's update changes the bet tables as `ApplyUpdate` and never the ledger |
| Settlement.UserBetController.AdminUpdateBet | backend/src/controllers/UserBet.controller.ts:234-295 | the update and the `SettlementCredit` credit happen together or not at all |
| Odds.KeepingOwnNameAllowed | backend/src/services/Odds.service.ts:70-76 | with unique names, a market's own name is never held by another market |
| Odds.MarketChanges | backend/src/services/Odds.service.ts:68-90 | a non-empty name, a type, a description and a flag are written when supplied, and nothing else; nothing is written exactly when none is supplied |
| Odds.OptionChanges | backend/src/services/Odds.service.ts:134-152 | a non-empty key or label, a description and a flag are written when supplied, and nothing else; nothing is written exactly when none is supplied |
| Odds.PatchMarket | backend/src/services/Odds.service.ts:82-92 | every written column takes its new value and every other column keeps the stored one; the id never changes |
| Odds.PatchOption | backend/src/services/Odds.service.ts:144-154 | every written column takes its new value and every other column keeps the stored one; the id and the market link never change |
| Odds.OddsService.CreateMarket | backend/src/services/Odds.service.ts:23-39 | refuses an empty name, a missing type or a taken name; otherwise adds one market holding the given name, type and description, active by default, keeping names unique |
| Odds.OddsService.UpdateMarket | backend/src/services/Odds.service.ts:67-93 | refuses a name held by another market and an empty update; otherwise patches that market, if stored |
| Odds.OddsService.CreateOption | backend/src/services/Odds.service.ts:100-119 | refuses a missing market id, key or label and an unknown market; otherwise adds one option holding the given market, key, label and description, active by default |
| Odds.OddsService.UpdateOption | backend/src/services/Odds.service.ts:133-155 | refuses an empty update; otherwise patches that option, if stored |
| Users.UserService.Create | backend/src/services/User.service.ts:13-23 | refuses an empty address; otherwise appends one user holding only that address |
| Users.UserService.Fetch | backend/src/services/User.service.ts:25-29 | refuses a falsy id; returns the user with that id, or null exactly when there is none |
| Users.UserService.FetchByWalletAddress | backend/src/services/User.service.ts:41-45 | refuses an empty address; returns a user holding it (the first in creation order), or null exactly when none does |
| Users.UserService.Update | backend/src/services/User.service.ts:47-60 | refuses an address any user holds (the user's own included) and an update without an address; otherwise writes the address |
| Scenarios.SingleBetAccepted | backend/src/services/UserBet.service.ts:22-50 | one leg at 2.5, total 2.5, stake 10, payout 25 passes the checks |
| Scenarios.MisquotedBetRejected | backend/src/services/UserBet.service.ts:39-43 | legs 2.0 and 1.5 against a total of 2.9 fail the odds check |
| Scenarios.PlaceAndWin | backend/src/controllers/UserBet.controller.ts:26-79 | from 100 chips, placing 10 leaves 90; settling won with payout 25 gives 115; two history rows |
| Scenarios.MisquotedOddsRejected | backend/src/controllers/UserBet.controller.ts:44-77 | the misquoted bet is refused with no bet, leg or history row and no ledger row beyond the funding |
| Scenarios.ShortBalanceRejected | backend/src/controllers/UserBet.controller.ts:44-48 | holding 5, a stake of 10 is refused and the balance stays 5 |
| Scenarios.ReopenedBetPaidTwice | backend/src/controllers/UserBet.controller.ts:259-271 | won, pending, won credits the potential payout twice: 90 → 115 → 115 → 140 |

## Left out

- The body of the `ProcessChipsTransaction` database procedure is not visible. `Chips.ApplyTransaction` is an assumption, not a checked property. Whatever refusal the procedure has (for example of a negative resulting balance) is a boolean parameter rather than a condition.
- Chips.ApplyTransaction: the free-text `description` column of ledger rows is not modelled.
- Concurrency, the shared database handle and interleaving of requests are not modelled. Each controller operation is one atomic step.
- Floating point is not modelled: JavaScript numbers are `real`. NaN, `undefined` numbers and non-numeric request fields are outside the model.
- The read queries that join or aggregate are left out, because they are SQL views with no logic in the services:
  - `fetchBetForFront`, `fetchUserBets`, `fetchMatchBets`, `fetchUserStats`, `fetchBetHistory`;
  - `getUserTransactions`, `getUserChipsStats`, `getAllUsersChipsStats`, `getTransactionsByType`;
  - the market and option listings.
- `removeMarket`, `removeOption` and the user `remove` are left out. What they do to dependent rows depends on foreign-key rules that are not visible.
- The controller's `deleteBet` only forwards to `Bets.UserBetService.DeleteBet`, so it is not modelled separately.
- Bets.UserBetService.DeleteBet: the service deletes only from the bet table. What happens to the bet's leg and history rows depends on foreign-key rules that are not visible. The model assumes they are kept.
- Chips.UserChipsService.GetUserBalance: the `errorCreating` branch, taken when the inserted row cannot be read back, cannot happen in an in-memory table.
- Odds.OddsService.CreateMarket and Odds.OddsService.UpdateMarket compare names exactly. The database's collation (case or trailing-space insensitivity) is not modelled.
- Odds.OddsService.UpdateMarket and Odds.OddsService.UpdateOption: a description explicitly set to null is not distinguished from an absent one.
- Bets.UserBetService.UpdateBet: `updateBet` tests `result_payout` and `notes` against `undefined`, so an explicit null is written to the column. An `Option` field cannot tell an explicit null from an absent field, so the model never clears those columns.
- Bets.UserBetService.Restore and Chips.UserChipsService.Restore: a rollback also resets the next bet id, and ledger row ids stay dense. With a MySQL auto-increment key, a rolled-back insert still uses up its id (the bet id comes from `insertId`), so after a failed placement the real ids skip a number where the model's do not.
- Users.UserService.FetchByWalletAddress: the lookup query has no ORDER BY, so which of several users holding the same address is returned is not fixed by the code. The model returns the first in creation order.
- Chips.RowsWithReference: the query orders by `created_at` descending. The model orders by row id, which is insertion order. The two agree when the clock does not go backwards; MySQL leaves the order of rows with equal timestamps unspecified.
- Users.UserService.Create: no address-uniqueness check exists in the service. A unique index in the database, if any, is not modelled.
- Users.UserService: users carry only an id and a wallet address. Other columns of the user table are not read by the service.
- Wallet signatures, token issuance, HTTP routes, response envelopes and the frontend are outside the core.

=== FILE: bet_rules.dfy ===
/** The pure rules of the bet service: the checks a new bet must pass, the
    product of leg odds, what an update does to a bet, and the effect of
    each service write on the bet tables as a whole. */
module BetRules {
  import opened Common
  import opened BetTypes

  // ---------------------------------------------------------------------
  // Odds arithmetic

  /** `reduce((acc, d) => acc * d, 1)`: a left fold of the odds. */
  function Product(xs: seq<real>): real {
    if xs == [] then 1.0 else Product(xs[..|xs| - 1]) * xs[|xs| - 1]
  }

  /** The odd values of the legs, in order. */
  function OddValues(legs: seq<DetailInsert>): (r: seq<real>)
    ensures |r| == |legs|
    ensures forall i :: 0 <= i < |legs| ==> r[i] == legs[i].odd_value
  {
    seq(|legs|, i requires 0 <= i < |legs| => legs[i].odd_value)
  }

  /** The product of the legs splits over any split of the legs, so the
      odds check does not depend on how the selections are grouped. */
  lemma {:induction false} ProductConcat(a: seq<real>, b: seq<real>)
    ensures Product(a + b) == Product(a) * Product(b)
  {
    if b == [] {
      assert a + b == a;
    } else {
      var b' := b[..|b| - 1];
      var x := b[|b| - 1];
      assert (a + b)[..|a + b| - 1] == a + b';
      assert (a + b)[|a + b| - 1] == x;
      ProductConcat(a, b');
      calc {
        Product(a + b);
        Product(a + b') * x;
        (Product(a) * Product(b')) * x;
        Product(a) * (Product(b') * x);
        Product(a) * Product(b);
      }
    }
  }

  /** Swapping the two halves of a leg list leaves the product unchanged. */
  lemma ProductOrderInsensitive(a: seq<real>, b: seq<real>)
    ensures Product(a + b) == Product(b + a)
  {
    ProductConcat(a, b);
    ProductConcat(b, a);
  }

  // ---------------------------------------------------------------------
  // Validation of a new bet

  /** The product of the leg odds is within the margin of `total`. */
  predicate OddsConsistent(odds: seq<real>, total: real) {
    Abs(Product(odds) - total) <= Tolerance
  }

  /** Stake times odds is within the margin of the announced payout. */
  predicate PayoutConsistent(amount: real, totalOdds: real, payout: real) {
    Abs(amount * totalOdds - payout) <= Tolerance
  }

  /** Every check of creation short of the two margin checks: required
      ids, positive amounts, at least one leg, and a bet type that agrees
      with the number of legs. */
  predicate ShapeAccepted(data: BetInsert) {
    && IdGiven(data.user_id)
    && IdGiven(data.match_id)
    && data.bet_amount > 0.0
    && data.potential_payout > 0.0
    && data.total_odds > 0.0
    && |data.details| >= 1
    && (data.bet_type == "single" <==> |data.details| == 1)
    && (data.bet_type == "multiple" <==> |data.details| > 1)
  }

  /** A bet that creation accepts. */
  predicate BetAccepted(data: BetInsert) {
    && ShapeAccepted(data)
    && OddsConsistent(OddValues(data.details), data.total_odds)
    && PayoutConsistent(data.bet_amount, data.total_odds, data.potential_payout)
  }

  /** The checks of `createBet`, in the order the service makes them. */
  function ValidateBet(data: BetInsert): (r: Outcome)
    ensures r.Pass? <==> BetAccepted(data)
    ensures ShapeAccepted(data) && !OddsConsistent(OddValues(data.details), data.total_odds)
      ==> r == Fail(OddsMismatch)
    ensures ShapeAccepted(data) && OddsConsistent(OddValues(data.details), data.total_odds)
      && !PayoutConsistent(data.bet_amount, data.total_odds, data.potential_payout)
      ==> r == Fail(PayoutMismatch)
    ensures !IdGiven(data.user_id) ==> r == Fail(MissingField(UserId))
    ensures IdGiven(data.user_id) && !IdGiven(data.match_id) ==> r == Fail(MissingField(MatchId))
    ensures (IdGiven(data.user_id) && IdGiven(data.match_id) && data.bet_amount <= 0.0)
      ==> r == Fail(MissingField(BetAmount))
    ensures (IdGiven(data.user_id) && IdGiven(data.match_id) && data.bet_amount > 0.0
      && data.potential_payout <= 0.0)
      ==> r == Fail(MissingField(PotentialPayout))
    ensures (IdGiven(data.user_id) && IdGiven(data.match_id) && data.bet_amount > 0.0
      && data.potential_payout > 0.0 && data.total_odds <= 0.0)
      ==> r == Fail(MissingField(TotalOdds))
    ensures (IdGiven(data.user_id) && IdGiven(data.match_id) && data.bet_amount > 0.0
      && data.potential_payout > 0.0 && data.total_odds > 0.0
      && data.bet_type != "single" && data.bet_type != "multiple")
      ==> r == Fail(MissingField(BetKind))
    ensures (IdGiven(data.user_id) && IdGiven(data.match_id) && data.bet_amount > 0.0
      && data.potential_payout > 0.0 && data.total_odds > 0.0
      && (data.bet_type == "single" || data.bet_type == "multiple")
      && |data.details| == 0)
      ==> r == Fail(MissingField(BetSelections))
    ensures (IdGiven(data.user_id) && IdGiven(data.match_id) && data.bet_amount > 0.0
      && data.potential_payout > 0.0 && data.total_odds > 0.0
      && data.bet_type == "multiple" && |data.details| == 1)
      ==> r == Fail(SingleSelectionNeedsSingle)
    ensures (IdGiven(data.user_id) && IdGiven(data.match_id) && data.bet_amount > 0.0
      && data.potential_payout > 0.0 && data.total_odds > 0.0
      && data.bet_type == "single" && |data.details| > 1)
      ==> r == Fail(SeveralSelectionsNeedMultiple)
  {
    if !IdGiven(data.user_id) then Fail(MissingField(UserId))
    else if !IdGiven(data.match_id) then Fail(MissingField(MatchId))
    else if data.bet_amount <= 0.0 then Fail(MissingField(BetAmount))
    else if data.potential_payout <= 0.0 then Fail(MissingField(PotentialPayout))
    else if data.total_odds <= 0.0 then Fail(MissingField(TotalOdds))
    else if data.bet_type != "single" && data.bet_type != "multiple" then Fail(MissingField(BetKind))
    else if |data.details| == 0 then Fail(MissingField(BetSelections))
    else if |data.details| == 1 && data.bet_type != "single" then Fail(SingleSelectionNeedsSingle)
    else if |data.details| > 1 && data.bet_type != "multiple" then Fail(SeveralSelectionsNeedMultiple)
    else if Abs(Product(OddValues(data.details)) - data.total_odds) > Tolerance then Fail(OddsMismatch)
    else if Abs(data.bet_amount * data.total_odds - data.potential_payout) > Tolerance then Fail(PayoutMismatch)
    else Pass
  }

  /** An accepted bet has one leg exactly when it is a single. */
  lemma AcceptedTypeMatchesLegs(data: BetInsert)
    requires ValidateBet(data).Pass?
    ensures data.bet_type == "single" || data.bet_type == "multiple"
    ensures data.bet_type == "single" <==> |data.details| == 1
  {
  }

  /** Creation never checks the sign of a leg: two negative legs whose
      product matches the total are accepted. */
  lemma NegativeLegsAccepted()
    ensures ValidateBet(BetInsert(1, 1, 10.0, 30.0, 3.0, "multiple", None, None, None,
                                  [DetailInsert(1, -2.0), DetailInsert(2, -1.5)])).Pass?
  {
    var legs := [DetailInsert(1, -2.0), DetailInsert(2, -1.5)];
    var odds := OddValues(legs);
    assert odds == [-2.0, -1.5];
    assert odds[..1] == [-2.0];
    assert odds[..1][..0] == [];
    assert Product(odds[..1]) == -2.0;
    assert Product(odds) == Product(odds[..1]) * -1.5;
  }

  /** The bet type stored for an accepted payload. */
  function ParseBetType(s: string): (t: BetType)
    ensures t == Single <==> s == "single"
  {
    if s == "single" then Single else Multiple
  }

  /** `data.status || 'pending'`. */
  function InitialStatus(data: BetInsert): Status {
    if data.status.Some? then data.status.value else Pending
  }

  /** The reason written on the history row of a new bet. */
  const CreationReason: string := "Aposta criada"

  function NewBet(id: int, data: BetInsert, now: int): Bet {
    Bet(id, data.user_id, data.match_id, data.bet_amount, data.potential_payout, data.total_odds,
        ParseBetType(data.bet_type), InitialStatus(data), None, now, None,
        data.transaction_hash, data.notes)
  }

  /** The leg rows written for bet `id`, one per selection, ungraded. */
  function DetailRows(id: int, legs: seq<DetailInsert>): (rows: seq<BetDetail>)
    ensures |rows| == |legs|
    ensures forall i :: 0 <= i < |legs| ==>
      rows[i] == BetDetail(id, legs[i].option_id, legs[i].odd_value, None)
  {
    seq(|legs|, i requires 0 <= i < |legs| => BetDetail(id, legs[i].option_id, legs[i].odd_value, None))
  }

  // ---------------------------------------------------------------------
  // The legs of a stored bet

  /** The odds of the leg rows that belong to bet `id`, in table order. */
  function LegOdds(details: seq<BetDetail>, id: int): seq<real> {
    if details == [] then []
    else (if details[0].bet_id == id then [details[0].odd_value] else []) + LegOdds(details[1..], id)
  }

  lemma {:induction false} LegOddsConcat(a: seq<BetDetail>, b: seq<BetDetail>, id: int)
    ensures LegOdds(a + b, id) == LegOdds(a, id) + LegOdds(b, id)
  {
    if a != [] {
      assert (a + b)[1..] == a[1..] + b;
      LegOddsConcat(a[1..], b, id);
    } else {
      assert a + b == b;
    }
  }

  lemma {:induction false} LegOddsAbsent(details: seq<BetDetail>, id: int)
    requires forall i :: 0 <= i < |details| ==> details[i].bet_id != id
    ensures LegOdds(details, id) == []
  {
    if details != [] {
      LegOddsAbsent(details[1..], id);
    }
  }

  /** The rows written for bet `id` carry exactly its legs' odds. */
  lemma {:induction false} LegOddsOfRows(id: int, legs: seq<DetailInsert>, other: int)
    ensures LegOdds(DetailRows(id, legs), other) == if other == id then OddValues(legs) else []
  {
    if legs != [] {
      var rows := DetailRows(id, legs);
      assert rows[1..] == DetailRows(id, legs[1..]);
      LegOddsOfRows(id, legs[1..], other);
      if other == id {
        assert OddValues(legs) == [legs[0].odd_value] + OddValues(legs[1..]);
      }
    }
  }

  // ---------------------------------------------------------------------
  // The bet tables and their invariant

  /** What creation guarantees of every stored bet, against its legs. */
  predicate Consistent(bet: Bet, odds: seq<real>) {
    && IdGiven(bet.user_id)
    && IdGiven(bet.match_id)
    && bet.bet_amount > 0.0
    && bet.potential_payout > 0.0
    && bet.total_odds > 0.0
    && |odds| >= 1
    && (bet.bet_type == Single <==> |odds| == 1)
    && OddsConsistent(odds, bet.total_odds)
    && PayoutConsistent(bet.bet_amount, bet.total_odds, bet.potential_payout)
  }

  /** Ids come from an auto-increment counter and start at 1; every stored
      bet is consistent with its stored legs. */
  ghost predicate ValidBets(t: BetTables) {
    && t.nextBetId > 0
    && (forall id :: id in t.bets ==> 0 < id < t.nextBetId && t.bets[id].id == id)
    && (forall id :: id in t.bets ==> Consistent(t.bets[id], LegOdds(t.details, id)))
    && (forall i :: 0 <= i < |t.details| ==> 0 < t.details[i].bet_id < t.nextBetId)
  }

  const InitialBetTables: BetTables := BetTables(map[], [], [], 1)

  /** The tables after `createBet` accepted `data`: the bet under the next
      id, its legs, and one history row from null to its status. */
  function Created(t: BetTables, data: BetInsert, now: int): (t': BetTables)
    requires ValidateBet(data).Pass?
    ensures t'.nextBetId == t.nextBetId + 1
    ensures |t'.history| == |t.history| + 1 && t'.history[..|t.history|] == t.history
    ensures t'.bets.Keys == t.bets.Keys + {t.nextBetId}
    ensures t'.history[|t.history|].old_status == None
    ensures t'.history[|t.history|].new_status == t'.bets[t.nextBetId].status
    ensures data.status == None ==> t'.bets[t.nextBetId].status == Pending
    ensures data.status.Some? ==> t'.bets[t.nextBetId].status == data.status.value
    ensures forall k :: k in t.bets && k != t.nextBetId ==> t'.bets[k] == t.bets[k]
    ensures t'.details == t.details + DetailRows(t.nextBetId, data.details)
    ensures t'.history[|t.history|].bet_id == t.nextBetId
    ensures var b := t'.bets[t.nextBetId];
      && b.id == t.nextBetId && b.user_id == data.user_id && b.match_id == data.match_id
      && b.bet_amount == data.bet_amount && b.total_odds == data.total_odds
      && b.potential_payout == data.potential_payout
      && b.result_payout == None && b.settled_at == None && b.placed_at == now
      && b.bet_type == ParseBetType(data.bet_type)
      && b.transaction_hash == data.transaction_hash && b.notes == data.notes
    ensures t'.history[|t.history|].changed_by == None && t'.history[|t.history|].reason == CreationReason
  {
    var id := t.nextBetId;
    BetTables(
      t.bets[id := NewBet(id, data, now)],
      t.details + DetailRows(id, data.details),
      t.history + [HistoryRow(id, None, InitialStatus(data), None, CreationReason)],
      id + 1)
  }

  /** After creation, bet `b` owns the legs it owned before, and the new
      bet owns exactly the legs of the payload. */
  lemma CreatedLegOdds(t: BetTables, data: BetInsert, now: int, b: int)
    requires ValidBets(t) && ValidateBet(data).Pass?
    ensures LegOdds(Created(t, data, now).details, b)
      == if b == t.nextBetId then OddValues(data.details) else LegOdds(t.details, b)
  {
    var id := t.nextBetId;
    LegOddsConcat(t.details, DetailRows(id, data.details), b);
    LegOddsOfRows(id, data.details, b);
    if b == id {
      LegOddsAbsent(t.details, id);
    }
  }

  /** Creation keeps every stored bet consistent with its legs, the new
      one included. */
  lemma CreatedValid(t: BetTables, data: BetInsert, now: int)
    requires ValidBets(t) && ValidateBet(data).Pass?
    ensures ValidBets(Created(t, data, now))
  {
    var id := t.nextBetId;
    var t' := Created(t, data, now);
    var rows := DetailRows(id, data.details);
    assert t'.details == t.details + rows;
    forall i | 0 <= i < |t'.details|
      ensures 0 < t'.details[i].bet_id < t'.nextBetId
    {
      if i >= |t.details| {
        assert t'.details[i] == rows[i - |t.details|];
      }
    }
    forall b | b in t'.bets
      ensures Consistent(t'.bets[b], LegOdds(t'.details, b))
    {
      CreatedLegOdds(t, data, now, b);
      if b == id {
        assert BetAccepted(data);
        assert t'.bets[b] == NewBet(id, data, now);
      } else {
        assert t'.bets[b] == t.bets[b];
      }
    }
  }

  // ---------------------------------------------------------------------
  // Ownership

  /** The ownership check of `fetchBet`: made only when a truthy user id
      is given. */
  predicate Visible(bet: Bet, userId: Option<int>) {
    !OptIdGiven(userId) || bet.user_id == userId.value
  }

  // ---------------------------------------------------------------------
  // Updates

  /** The update names a status other than the current one. */
  predicate StatusChanges(current: Status, data: BetUpdate) {
    data.status.Some? && data.status.value != current
  }

  /** The update has at least one column to write. */
  predicate HasEffect(current: Status, data: BetUpdate) {
    || StatusChanges(current, data)
    || data.result_payout.Some?
    || TextGiven(data.transaction_hash)
    || data.notes.Some?
  }

  /** The columns `updateBet` writes (its `toUpdate` object): a status
      other than the current one, with `settled_at` stamped when that
      status settles the bet; a result payout, a non-empty hash and a note
      when supplied. Nothing is written exactly when the update has no
      effect. */
  function Columns(current: Status, data: BetUpdate, now: int): (p: BetPatch)
    ensures p == EmptyPatch <==> !HasEffect(current, data)
    ensures p.status.Some? <==> StatusChanges(current, data)
    ensures p.status.Some? ==> p.status == data.status
    ensures p.settled_at.Some? <==> p.status.Some? && IsSettling(p.status.value)
    ensures p.settled_at.Some? ==> p.settled_at == Some(now)
    ensures p.result_payout == data.result_payout
    ensures p.transaction_hash == (if TextGiven(data.transaction_hash) then data.transaction_hash else None)
    ensures p.notes == data.notes
  {
    var changes := StatusChanges(current, data);
    BetPatch(if changes then data.status else None,
             if changes && IsSettling(data.status.value) then Some(now) else None,
             data.result_payout,
             if TextGiven(data.transaction_hash) then data.transaction_hash else None,
             data.notes)
  }

  /** The database update: every column named in the patch is overwritten. */
  function ApplyPatch(bet: Bet, p: BetPatch): (b: Bet)
    ensures b.status == (if p.status.Some? then p.status.value else bet.status)
    ensures b.settled_at == (if p.settled_at.Some? then p.settled_at else bet.settled_at)
    ensures b.result_payout == (if p.result_payout.Some? then p.result_payout else bet.result_payout)
    ensures b.transaction_hash == (if p.transaction_hash.Some? then p.transaction_hash else bet.transaction_hash)
    ensures b.notes == (if p.notes.Some? then p.notes else bet.notes)
    ensures b.(status := bet.status, settled_at := bet.settled_at, result_payout := bet.result_payout,
               transaction_hash := bet.transaction_hash, notes := bet.notes) == bet
  {
    bet.(status := if p.status.Some? then p.status.value else bet.status,
         settled_at := if p.settled_at.Some? then p.settled_at else bet.settled_at,
         result_payout := if p.result_payout.Some? then p.result_payout else bet.result_payout,
         transaction_hash := if p.transaction_hash.Some? then p.transaction_hash else bet.transaction_hash,
         notes := if p.notes.Some? then p.notes else bet.notes)
  }

  /** The bet after an update. An update never touches the identity, the
      owner, the stake, the odds, the payout or the leg type. */
  function Updated(bet: Bet, data: BetUpdate, now: int): (b: Bet)
    ensures b.(status := bet.status, settled_at := bet.settled_at, result_payout := bet.result_payout,
               transaction_hash := bet.transaction_hash, notes := bet.notes) == bet
    ensures data.status.Some? ==> b.status == data.status.value
    ensures data.status.None? ==> b.status == bet.status
    ensures b.result_payout == (if data.result_payout.Some? then data.result_payout else bet.result_payout)
    ensures b.transaction_hash == (if TextGiven(data.transaction_hash) then data.transaction_hash else bet.transaction_hash)
    ensures b.notes == (if data.notes.Some? then data.notes else bet.notes)
  {
    ApplyPatch(bet, Columns(bet.status, data, now))
  }

  /** `data.notes || 'Status alterado para <status>'`. */
  function UpdateReason(data: BetUpdate): string
    requires data.status.Some?
  {
    if TextGiven(data.notes) then data.notes.value else "Status alterado para " + StatusName(data.status.value)
  }

  /** The tables after `updateBet` accepted `data` for bet `id`: the bet is
      updated, and one history row is appended exactly when the status
      changed, recording the prior status. */
  function ApplyUpdate(t: BetTables, id: int, data: BetUpdate, changedBy: Option<int>, now: int): (t': BetTables)
    requires id in t.bets
    ensures t'.details == t.details && t'.nextBetId == t.nextBetId
    ensures t'.bets.Keys == t.bets.Keys
    ensures forall b :: b in t.bets && b != id ==> t'.bets[b] == t.bets[b]
    ensures |t'.history| == |t.history| + (if StatusChanges(t.bets[id].status, data) then 1 else 0)
    ensures t'.history[..|t.history|] == t.history
    ensures StatusChanges(t.bets[id].status, data) ==>
      && t'.history[|t.history|].old_status == Some(t.bets[id].status)
      && t'.history[|t.history|].new_status == t'.bets[id].status
    ensures t'.bets[id] == Updated(t.bets[id], data, now)
    ensures StatusChanges(t.bets[id].status, data) ==>
      && t'.history[|t.history|].bet_id == id
      && t'.history[|t.history|].new_status == data.status.value
      && t'.history[|t.history|].changed_by == changedBy
      && t'.history[|t.history|].reason == UpdateReason(data)
  {
    var current := t.bets[id];
    t.(bets := t.bets[id := Updated(current, data, now)],
       history := t.history + if StatusChanges(current.status, data)
                              then [HistoryRow(id, Some(current.status), data.status.value, changedBy, UpdateReason(data))]
                              else [])
  }

  /** An update keeps every stored bet consistent with its legs. */
  lemma UpdateValid(t: BetTables, id: int, data: BetUpdate, changedBy: Option<int>, now: int)
    requires ValidBets(t) && id in t.bets
    ensures ValidBets(ApplyUpdate(t, id, data, changedBy, now))
  {
    var b := ApplyUpdate(t, id, data, changedBy, now).bets[id];
    assert b.(status := t.bets[id].status, settled_at := t.bets[id].settled_at,
              result_payout := t.bets[id].result_payout, transaction_hash := t.bets[id].transaction_hash,
              notes := t.bets[id].notes) == t.bets[id];
  }

  /** A move into won, lost, cancelled or refunded stamps `settled_at`;
      any other update leaves it as it was. */
  lemma SettlingStampsTime(bet: Bet, data: BetUpdate, now: int)
    ensures StatusChanges(bet.status, data) && IsSettling(data.status.value)
      ==> Updated(bet, data, now).settled_at == Some(now)
    ensures !(StatusChanges(bet.status, data) && IsSettling(data.status.value))
      ==> Updated(bet, data, now).settled_at == bet.settled_at
  {
  }

  /** The update does not guard the source status: a settled bet can be
      moved back to pending, and the move is recorded in the history. */
  lemma UpdateReopensSettledBet(t: BetTables, id: int, changedBy: Option<int>, now: int)
    requires id in t.bets && IsSettling(t.bets[id].status)
    ensures var data := BetUpdate(Some(Pending), None, None, None);
      && HasEffect(t.bets[id].status, data)
      && ApplyUpdate(t, id, data, changedBy, now).bets[id].status == Pending
      && ApplyUpdate(t, id, data, changedBy, now).history
         == t.history + [HistoryRow(id, Some(t.bets[id].status), Pending, changedBy, "Status alterado para pending")]
  {
    assert UpdateReason(BetUpdate(Some(Pending), None, None, None)) == "Status alterado para pending";
  }

  /** Repeating a status request changes nothing more: the second request
      writes no history row, and when it carries nothing else it has no
      effect at all (the service rejects it). */
  lemma RepeatedStatusRequest(t: BetTables, id: int, data: BetUpdate, changedBy: Option<int>, now: int, later: int)
    requires id in t.bets && data.status.Some?
    ensures var t1 := ApplyUpdate(t, id, data, changedBy, now);
      && !StatusChanges(t1.bets[id].status, data)
      && |ApplyUpdate(t1, id, data, changedBy, later).history| == |t1.history|
      && (data == BetUpdate(data.status, None, None, None) ==> !HasEffect(t1.bets[id].status, data))
  {
  }

  // ---------------------------------------------------------------------
  // Cancellation, deletion and leg grading

  /** The note `cancelBet` passes on: the reason, or a default text. */
  function CancelNote(reason: Option<string>): (s: string)
    ensures s != ""
  {
    if TextGiven(reason) then reason.value else "Aposta cancelada"
  }

  function CancelUpdate(reason: Option<string>): BetUpdate {
    BetUpdate(Some(Cancelled), None, None, Some(CancelNote(reason)))
  }

  /** A cancellation of a pending bet: the bet becomes cancelled and
      settled now, keeps the note, and one history row records it. */
  lemma CancelFromPending(t: BetTables, id: int, reason: Option<string>, now: int)
    requires id in t.bets && t.bets[id].status == Pending
    ensures var t' := ApplyUpdate(t, id, CancelUpdate(reason), None, now);
      && t'.bets[id] == t.bets[id].(status := Cancelled, settled_at := Some(now), notes := Some(CancelNote(reason)))
      && t'.history == t.history + [HistoryRow(id, Some(Pending), Cancelled, None, CancelNote(reason))]
  {
  }

  /** The statuses from which `deleteBet` removes a bet. */
  predicate Deletable(s: Status) {
    s == Pending || s == Cancelled
  }

  /** The leg rows after `updateBetDetail`: the rows of bet `betId` on
      option `optionId` get the verdict; nothing else changes. */
  function GradedDetails(details: seq<BetDetail>, betId: int, optionId: int, isWinner: bool): (r: seq<BetDetail>)
    ensures |r| == |details|
    ensures forall i :: 0 <= i < |details| ==>
      r[i] == if details[i].bet_id == betId && details[i].option_id == optionId
              then details[i].(is_winner := Some(isWinner)) else details[i]
    ensures forall id :: LegOdds(r, id) == LegOdds(details, id)
  {
    if details == [] then []
    else
      var d := details[0];
      var rest := GradedDetails(details[1..], betId, optionId, isWinner);
      var r := [if d.bet_id == betId && d.option_id == optionId then d.(is_winner := Some(isWinner)) else d] + rest;
      assert r[1..] == rest;
      r
  }
}

=== FILE: bet_types.dfy ===
/** Records of the betting tables: a bet, its legs (selections), its status
    history, and the payloads accepted by create and update. */
module BetTypes {
  import opened Common

  /** The status of a bet; `pending` is where a new bet starts by default. */
  datatype Status = Pending | Won | Lost | Cancelled | Refunded

  /** The statuses that stamp `settled_at` when a bet moves into them. */
  predicate IsSettling(s: Status) {
    s == Won || s == Lost || s == Cancelled || s == Refunded
  }

  /** The status as stored and as written into history reasons. */
  function StatusName(s: Status): string {
    match s
    case Pending => "pending"
    case Won => "won"
    case Lost => "lost"
    case Cancelled => "cancelled"
    case Refunded => "refunded"
  }

  datatype BetType = Single | Multiple

  /** A row of the bet table. Timestamps are ticks of an external clock. */
  datatype Bet = Bet(
    id: int,
    user_id: int,
    match_id: int,
    bet_amount: real,
    potential_payout: real,
    total_odds: real,
    bet_type: BetType,
    status: Status,
    result_payout: Option<real>,
    placed_at: int,
    settled_at: Option<int>,
    transaction_hash: Option<string>,
    notes: Option<string>)

  /** A leg of a bet; `is_winner` stays null until the leg is graded. */
  datatype BetDetail = BetDetail(bet_id: int, option_id: int, odd_value: real, is_winner: Option<bool>)

  /** An audit row; `old_status` is null for the row written at creation. */
  datatype HistoryRow = HistoryRow(
    bet_id: int,
    old_status: Option<Status>,
    new_status: Status,
    changed_by: Option<int>,
    reason: string)

  datatype DetailInsert = DetailInsert(option_id: int, odd_value: real)

  /** The payload of a new bet. `bet_type` arrives as text and is checked. */
  datatype BetInsert = BetInsert(
    user_id: int,
    match_id: int,
    bet_amount: real,
    potential_payout: real,
    total_odds: real,
    bet_type: string,
    status: Option<Status>,
    transaction_hash: Option<string>,
    notes: Option<string>,
    details: seq<DetailInsert>)

  /** The payload of an update; an absent field asks for no change. */
  datatype BetUpdate = BetUpdate(
    status: Option<Status>,
    result_payout: Option<real>,
    transaction_hash: Option<string>,
    notes: Option<string>)

  /** The set of columns an update writes (the `toUpdate` object). */
  datatype BetPatch = BetPatch(
    status: Option<Status>,
    settled_at: Option<int>,
    result_payout: Option<real>,
    transaction_hash: Option<string>,
    notes: Option<string>)

  const EmptyPatch: BetPatch := BetPatch(None, None, None, None, None)

  /** The bet tables as one value: what a rollback restores. */
  datatype BetTables = BetTables(
    bets: map<int, Bet>,
    details: seq<BetDetail>,
    history: seq<HistoryRow>,
    nextBetId: int)
}

=== FILE: bets.dfy ===
/** The bet service: creation with its checks, lookup with its ownership
    check, the status update, cancellation, deletion and leg grading, over
    in-memory copies of the bet, leg and history tables. */
module Bets {
  import opened Common
  import opened BetTypes
  import opened BetRules

  class UserBetService {
    var bets: map<int, Bet>
    var details: seq<BetDetail>
    var history: seq<HistoryRow>
    var nextBetId: int

    function Tables(): BetTables
      reads this
    {
      BetTables(bets, details, history, nextBetId)
    }

    ghost predicate Valid()
      reads this
    {
      ValidBets(Tables())
    }

    constructor ()
      ensures Valid() && Tables() == InitialBetTables
    {
      bets, details, history, nextBetId := map[], [], [], 1;
    }

    /** Puts back tables saved earlier (a database rollback). */
    method Restore(t: BetTables)
      requires ValidBets(t)
      modifies this
      ensures Valid() && Tables() == t
    {
      bets, details, history, nextBetId := t.bets, t.details, t.history, t.nextBetId;
    }

    /** `createBet`: the checks come first and write nothing when one
        fails; then the bet, its legs one by one, and the first history
        row. */
    method CreateBet(data: BetInsert, now: int) returns (r: Result<int>)
      requires Valid()
      modifies this
      ensures Valid()
      ensures r.Err? <==> ValidateBet(data).Fail?
      ensures r.Err? ==> r.error == ValidateBet(data).error && Tables() == old(Tables())
      ensures r.Ok? ==> r.value == old(nextBetId) && r.value !in old(bets) && IdGiven(r.value)
      ensures r.Ok? ==> Tables() == Created(old(Tables()), data, now)
    {
      var check := ValidateBet(data);
      if check.Fail? {
        return Err(check.error);
      }
      ghost var before := Tables();
      var id := nextBetId;
      var status := if data.status.Some? then data.status.value else Pending;
      var bet := Bet(id, data.user_id, data.match_id, data.bet_amount, data.potential_payout,
                     data.total_odds, ParseBetType(data.bet_type), status, None, now, None,
                     data.transaction_hash, data.notes);
      assert bet == NewBet(id, data, now);
      bets := bets[id := bet];
      nextBetId := nextBetId + 1;
      for i := 0 to |data.details|
        invariant details == before.details + DetailRows(id, data.details[..i])
        invariant bets == before.bets[id := bet] && history == before.history && nextBetId == id + 1
      {
        var leg := data.details[i];
        details := details + [BetDetail(id, leg.option_id, leg.odd_value, None)];
        assert DetailRows(id, data.details[..i + 1]) == DetailRows(id, data.details[..i]) + [BetDetail(id, leg.option_id, leg.odd_value, None)];
      }
      assert data.details[..|data.details|] == data.details;
      history := history + [HistoryRow(id, None, status, None, CreationReason)];
      assert Tables() == Created(before, data, now);
      CreatedValid(before, data, now);
      r := Ok(id);
    }

    /** `fetchBet`: the bet or null; with a truthy user id, a bet of
        another user is refused. */
    method FetchBet(id: int, userId: Option<int>) returns (r: Result<Option<Bet>>)
      ensures !IdGiven(id) ==> r == Err(MissingField(BetId))
      ensures IdGiven(id) && id !in bets ==> r == Ok(None)
      ensures IdGiven(id) && id in bets && !Visible(bets[id], userId) ==> r == Err(AccessDenied)
      ensures IdGiven(id) && id in bets && Visible(bets[id], userId) ==> r == Ok(Some(bets[id]))
      ensures r.Ok? && r.value.Some? && OptIdGiven(userId) ==> r.value.value.user_id == userId.value
    {
      if !IdGiven(id) {
        return Err(MissingField(BetId));
      }
      var bet := if id in bets then Some(bets[id]) else None;
      if OptIdGiven(userId) && bet.Some? && bet.value.user_id != userId.value {
        return Err(AccessDenied);
      }
      r := Ok(bet);
    }

    /** `updateBet`: builds the columns to write field by field, refuses an
        update with nothing to write, writes, and records a status change
        in the history. */
    method UpdateBet(data: BetUpdate, id: int, userId: Option<int>, changedBy: Option<int>, now: int)
      returns (r: Outcome)
      requires Valid()
      modifies this
      ensures Valid()
      ensures r.Pass? <==>
        IdGiven(id) && id in old(bets) && Visible(old(bets)[id], userId) && HasEffect(old(bets)[id].status, data)
      ensures !IdGiven(id) ==> r == Fail(MissingField(BetId))
      ensures IdGiven(id) && id !in old(bets) ==> r == Fail(RegistryNotFound)
      ensures IdGiven(id) && id in old(bets) && !Visible(old(bets)[id], userId) ==> r == Fail(AccessDenied)
      ensures IdGiven(id) && id in old(bets) && Visible(old(bets)[id], userId) && !HasEffect(old(bets)[id].status, data)
        ==> r == Fail(NoValidDataFound)
      ensures r.Fail? ==> Tables() == old(Tables())
      ensures r.Pass? ==> Tables() == ApplyUpdate(old(Tables()), id, data, changedBy, now)
    {
      if !IdGiven(id) {
        return Fail(MissingField(BetId));
      }
      var fetched := FetchBet(id, userId);
      if fetched.Err? {
        return Fail(fetched.error);
      }
      if fetched.value.None? {
        return Fail(RegistryNotFound);
      }
      var current := fetched.value.value;
      assert id in bets && current == bets[id] && Visible(current, userId);
      var toUpdate := Columns(current.status, data, now);
      if toUpdate == EmptyPatch {
        return Fail(NoValidDataFound);
      }
      ghost var before := Tables();
      ghost var after := ApplyUpdate(before, id, data, changedBy, now);
      bets := bets[id := ApplyPatch(current, toUpdate)];
      assert bets == after.bets;
      if toUpdate.status.Some? {
        history := history + [HistoryRow(id, Some(current.status), toUpdate.status.value, changedBy, UpdateReason(data))];
      }
      assert history == after.history;
      assert Tables() == after;
      UpdateValid(before, id, data, changedBy, now);
      r := Pass;
    }

    /** `cancelBet`: only a pending bet can be cancelled; the cancellation
        is an update to `cancelled` carrying the reason as its note. */
    method CancelBet(id: int, userId: Option<int>, reason: Option<string>, now: int) returns (r: Outcome)
      requires Valid()
      modifies this
      ensures Valid()
      ensures r.Pass? <==>
        IdGiven(id) && id in old(bets) && Visible(old(bets)[id], userId) && old(bets)[id].status == Pending
      ensures IdGiven(id) && id in old(bets) && Visible(old(bets)[id], userId) && old(bets)[id].status != Pending
        ==> r == Fail(OnlyPendingCancellable)
      ensures r.Fail? ==> Tables() == old(Tables())
      ensures r.Pass? ==> Tables() == ApplyUpdate(old(Tables()), id, CancelUpdate(reason), None, now)
      ensures r.Pass? ==> bets[id].status == Cancelled && |history| == |old(history)| + 1
    {
      var fetched := FetchBet(id, userId);
      if fetched.Err? {
        return Fail(fetched.error);
      }
      if fetched.value.None? {
        return Fail(RegistryNotFound);
      }
      if fetched.value.value.status != Pending {
        return Fail(OnlyPendingCancellable);
      }
      r := UpdateBet(BetUpdate(Some(Cancelled), None, None, Some(CancelNote(reason))), id, userId, None, now);
    }

    /** `deleteBet`: only a pending or cancelled bet can be deleted. The
        leg and history rows are left as they are. */
    method DeleteBet(id: int, userId: Option<int>) returns (r: Outcome)
      requires Valid()
      modifies this
      ensures Valid()
      ensures r.Pass? <==>
        IdGiven(id) && id in old(bets) && Visible(old(bets)[id], userId) && Deletable(old(bets)[id].status)
      ensures IdGiven(id) && id in old(bets) && Visible(old(bets)[id], userId) && !Deletable(old(bets)[id].status)
        ==> r == Fail(OnlyPendingOrCancelledDeletable)
      ensures r.Fail? ==> Tables() == old(Tables())
      ensures r.Pass? ==> Tables() == old(Tables()).(bets := old(bets) - {id})
    {
      var fetched := FetchBet(id, userId);
      if fetched.Err? {
        return Fail(fetched.error);
      }
      if fetched.value.None? {
        return Fail(RegistryNotFound);
      }
      if !Deletable(fetched.value.value.status) {
        return Fail(OnlyPendingOrCancelledDeletable);
      }
      bets := bets - {id};
      r := Pass;
    }

    /** `updateBetResult`: records whether one leg of a bet won. */
    method UpdateBetResult(betId: int, optionId: int, isWinner: bool) returns (r: Outcome)
      requires Valid()
      modifies this
      ensures Valid()
      ensures r.Pass? <==> IdGiven(betId) && IdGiven(optionId)
      ensures !IdGiven(betId) ==> r == Fail(MissingField(BetId))
      ensures r.Fail? ==> Tables() == old(Tables())
      ensures r.Pass? ==> Tables() == old(Tables()).(details := GradedDetails(old(details), betId, optionId, isWinner))
    {
      if !IdGiven(betId) {
        return Fail(MissingField(BetId));
      }
      if !IdGiven(optionId) {
        return Fail(MissingField(OptionId));
      }
      details := GradedDetails(details, betId, optionId, isWinner);
      r := Pass;
    }
  }
}

=== FILE: chips.dfy ===
/** The chips ledger: a balance row per user, created on first access, and
    an append-only transaction log. Every balance change goes through the
    database procedure `ProcessChipsTransaction`, whose body is not part of
    this model: `ApplyTransaction` states the effect ASSUMED for it, and
    whether it accepts a request is left to the caller as a parameter. */
module Chips {
  import opened Common
  import opened ChipsTypes

  // ---------------------------------------------------------------------
  // Sums over the log

  /** The sum of the signed amounts of `user`'s rows. */
  function LogSum(log: seq<ChipsTransaction>, user: int): real {
    if log == [] then 0.0
    else LogSum(log[..|log| - 1], user) + (if log[|log| - 1].user_id == user then log[|log| - 1].amount else 0.0)
  }

  /** The sum of `user`'s credits. */
  function Earned(log: seq<ChipsTransaction>, user: int): real {
    if log == [] then 0.0
    else
      var t := log[|log| - 1];
      Earned(log[..|log| - 1], user) + (if t.user_id == user && t.amount > 0.0 then t.amount else 0.0)
  }

  /** The sum of `user`'s debits, as a positive number. */
  function Spent(log: seq<ChipsTransaction>, user: int): real {
    if log == [] then 0.0
    else
      var t := log[|log| - 1];
      Spent(log[..|log| - 1], user) + (if t.user_id == user && t.amount < 0.0 then -t.amount else 0.0)
  }

  /** What a user has net is what they earned less what they spent. */
  lemma {:induction false} NetIsEarnedLessSpent(log: seq<ChipsTransaction>, user: int)
    ensures LogSum(log, user) == Earned(log, user) - Spent(log, user)
  {
    if log != [] {
      NetIsEarnedLessSpent(log[..|log| - 1], user);
    }
  }

  /** A user without rows has nothing in the log. */
  lemma {:induction false} SumsOfAbsentUser(log: seq<ChipsTransaction>, user: int)
    requires forall i :: 0 <= i < |log| ==> log[i].user_id != user
    ensures LogSum(log, user) == 0.0 && Earned(log, user) == 0.0 && Spent(log, user) == 0.0
  {
    if log != [] {
      SumsOfAbsentUser(log[..|log| - 1], user);
    }
  }

  /** Appending a row moves its user's sums by its amount and no one else's. */
  lemma SumsAfterAppend(log: seq<ChipsTransaction>, row: ChipsTransaction, user: int)
    ensures LogSum(log + [row], user) == LogSum(log, user) + (if row.user_id == user then row.amount else 0.0)
    ensures Earned(log + [row], user) == Earned(log, user) + (if row.user_id == user && row.amount > 0.0 then row.amount else 0.0)
    ensures Spent(log + [row], user) == Spent(log, user) + (if row.user_id == user && row.amount < 0.0 then -row.amount else 0.0)
  {
    assert (log + [row])[..|log|] == log;
  }

  // ---------------------------------------------------------------------
  // The ledger tables and their invariant

  /** Rows are numbered from 1 in order, every row's user has a balance
      row, every row moves the balance by its amount, and every balance
      row holds its user's net, credits and debits in the log. */
  ghost predicate ValidLedger(t: LedgerTables) {
    && (forall i :: 0 <= i < |t.log| ==>
          && t.log[i].id == i + 1
          && t.log[i].user_id in t.balances
          && t.log[i].balance_after == t.log[i].balance_before + t.log[i].amount)
    && (forall u :: u in t.balances ==>
          && t.balances[u].user_id == u
          && t.balances[u].balance == LogSum(t.log, u)
          && t.balances[u].total_earned == Earned(t.log, u)
          && t.balances[u].total_spent == Spent(t.log, u))
  }

  const EmptyLedger: LedgerTables := LedgerTables(map[], [])

  /** Every balance is what was earned less what was spent. */
  lemma BalanceIsEarnedLessSpent(t: LedgerTables, user: int)
    requires ValidLedger(t) && user in t.balances
    ensures t.balances[user].balance == t.balances[user].total_earned - t.balances[user].total_spent
  {
    NetIsEarnedLessSpent(t.log, user);
  }

  /** The row inserted on first access. */
  function ZeroBalance(user: int, now: int): ChipsBalance {
    ChipsBalance(user, 0.0, 0.0, 0.0, now)
  }

  /** The tables after `getUserBalance`: a zero row for a user without one. */
  function WithBalanceRow(t: LedgerTables, user: int, now: int): (t': LedgerTables)
    ensures t'.log == t.log && user in t'.balances
    ensures t'.balances.Keys == t.balances.Keys + {user}
    ensures forall u :: u in t.balances ==> t'.balances[u] == t.balances[u]
  {
    if user in t.balances then t else t.(balances := t.balances[user := ZeroBalance(user, now)])
  }

  /** The lazily created zero row agrees with the log. */
  lemma WithBalanceRowValid(t: LedgerTables, user: int, now: int)
    requires ValidLedger(t)
    ensures ValidLedger(WithBalanceRow(t, user, now))
  {
    if user !in t.balances {
      SumsOfAbsentUser(t.log, user);
    }
  }

  /** The balance a user holds, zero when they have no row yet. */
  function PriorBalance(t: LedgerTables, user: int): real {
    if user in t.balances then t.balances[user].balance else 0.0
  }

  // ---------------------------------------------------------------------
  // The transaction procedure

  /** The three checks of `processTransaction`: a truthy user id, a present
      amount (zero included) and a present type. */
  predicate RequestComplete(data: TransactionRequest) {
    IdGiven(data.user_id) && data.amount.Some? && data.transaction_type.Some?
  }

  /** `value || null` for an id and for a text. */
  function NullIfFalsy(x: Option<int>): Option<int> {
    if OptIdGiven(x) then x else None
  }

  function NullIfEmpty(s: Option<string>): Option<string> {
    if TextGiven(s) then s else None
  }

  /** A balance row after a signed amount is posted to it. */
  function Posted(b: ChipsBalance, amount: real, now: int): ChipsBalance {
    b.(balance := b.balance + amount,
       total_earned := b.total_earned + (if amount > 0.0 then amount else 0.0),
       total_spent := b.total_spent + (if amount < 0.0 then -amount else 0.0),
       last_updated := now)
  }

  /** ASSUMED effect of `ProcessChipsTransaction` when it accepts: it reads
      the user's balance (a missing row counting as zero), writes balance
      plus amount back with the credit or debit added to the totals, and
      appends exactly one row with the balance before and after. */
  function ApplyTransaction(t: LedgerTables, data: TransactionRequest, now: int): (t': LedgerTables)
    requires RequestComplete(data)
    ensures |t'.log| == |t.log| + 1 && t'.log[..|t.log|] == t.log
    ensures t'.log[|t.log|].user_id == data.user_id
    ensures t'.log[|t.log|].amount == data.amount.value
    ensures t'.log[|t.log|].transaction_type == data.transaction_type.value
    ensures t'.log[|t.log|].reference_id == NullIfFalsy(data.reference_id)
    ensures t'.log[|t.log|].reference_type == NullIfEmpty(data.reference_type)
    ensures t'.log[|t.log|].balance_before == PriorBalance(t, data.user_id)
    ensures t'.log[|t.log|].balance_after == PriorBalance(t, data.user_id) + data.amount.value
    ensures t'.balances.Keys == t.balances.Keys + {data.user_id}
    ensures t'.balances[data.user_id].balance == PriorBalance(t, data.user_id) + data.amount.value
    ensures forall u :: u in t.balances && u != data.user_id ==> t'.balances[u] == t.balances[u]
  {
    var user := data.user_id;
    var prior := if user in t.balances then t.balances[user] else ZeroBalance(user, now);
    var amount := data.amount.value;
    var row := ChipsTransaction(|t.log| + 1, user, amount, prior.balance, prior.balance + amount,
                                data.transaction_type.value, NullIfFalsy(data.reference_id),
                                NullIfEmpty(data.reference_type), NullIfEmpty(data.transaction_hash), now);
    assert (t.log + [row])[..|t.log|] == t.log;
    LedgerTables(t.balances[user := Posted(prior, amount, now)], t.log + [row])
  }

  /** The assumed step keeps the log and the balances in agreement. */
  lemma ApplyTransactionValid(t: LedgerTables, data: TransactionRequest, now: int)
    requires ValidLedger(t) && RequestComplete(data)
    ensures ValidLedger(ApplyTransaction(t, data, now))
  {
    var t' := ApplyTransaction(t, data, now);
    var user, amount := data.user_id, data.amount.value;
    var row := t'.log[|t.log|];
    assert t'.log == t.log + [row];
    forall i | 0 <= i < |t'.log|
      ensures t'.log[i].id == i + 1 && t'.log[i].user_id in t'.balances
      ensures t'.log[i].balance_after == t'.log[i].balance_before + t'.log[i].amount
    {
      if i < |t.log| {
        assert t'.log[i] == t.log[i];
      }
    }
    if user !in t.balances {
      SumsOfAbsentUser(t.log, user);
    }
    forall u | u in t'.balances
      ensures t'.balances[u].user_id == u
      ensures t'.balances[u].balance == LogSum(t'.log, u)
      ensures t'.balances[u].total_earned == Earned(t'.log, u)
      ensures t'.balances[u].total_spent == Spent(t'.log, u)
    {
      SumsAfterAppend(t.log, row, u);
    }
  }

  // ---------------------------------------------------------------------
  // Credits and debits

  /** `addChips`: refuses a non-positive amount and forwards the amount
      unchanged, so a credit reaches the ledger strictly positive. */
  function CreditRequest(user: int, amount: real, kind: TransactionType, refId: Option<int>,
                         refType: Option<string>, hash: Option<string>): (r: Result<TransactionRequest>)
    ensures r.Ok? <==> amount > 0.0
    ensures r.Err? ==> r.error == NonPositiveAmount
    ensures r.Ok? ==> r.value.amount.Some? && r.value.amount.value == amount && r.value.amount.value > 0.0
    ensures r.Ok? ==> r.value == TransactionRequest(user, Some(amount), Some(kind), refId, refType, hash)
  {
    if amount <= 0.0 then Err(NonPositiveAmount)
    else Ok(TransactionRequest(user, Some(amount), Some(kind), refId, refType, hash))
  }

  /** `removeChips`: refuses a non-positive amount and forwards its
      negation, so a debit reaches the ledger strictly negative. */
  function DebitRequest(user: int, amount: real, kind: TransactionType, refId: Option<int>,
                        refType: Option<string>, hash: Option<string>): (r: Result<TransactionRequest>)
    ensures r.Ok? <==> amount > 0.0
    ensures r.Err? ==> r.error == NonPositiveAmount
    ensures r.Ok? ==> r.value.amount.Some? && r.value.amount.value == -amount && r.value.amount.value < 0.0
    ensures r.Ok? ==> r.value == TransactionRequest(user, Some(-amount), Some(kind), refId, refType, hash)
  {
    if amount <= 0.0 then Err(NonPositiveAmount)
    else Ok(TransactionRequest(user, Some(-amount), Some(kind), refId, refType, hash))
  }

  /** A debit undoes a credit of the same amount: the balance is back where
      it was, and both movements stay in the log. */
  lemma CreditThenDebitRestoresBalance(t: LedgerTables, user: int, amount: real, kind: TransactionType, now: int)
    requires IdGiven(user) && amount > 0.0
    ensures var credited := ApplyTransaction(t, CreditRequest(user, amount, kind, None, None, None).value, now);
      var debited := ApplyTransaction(credited, DebitRequest(user, amount, kind, None, None, None).value, now);
      && PriorBalance(debited, user) == PriorBalance(t, user)
      && |debited.log| == |t.log| + 2
  {
  }

  // ---------------------------------------------------------------------
  // Queries

  /** Row ids grow along the log, as an auto-increment key does. */
  predicate IdsIncreasing(log: seq<ChipsTransaction>) {
    forall i, j :: 0 <= i < j < |log| ==> log[i].id < log[j].id
  }

  /** The rows that point back to (refType, refId), newest first: over a
      log whose ids grow, each matching row appears once and the ids fall
      strictly along the answer. */
  function RowsWithReference(log: seq<ChipsTransaction>, refType: string, refId: int): (r: seq<ChipsTransaction>)
    ensures |r| <= |log|
    ensures forall t :: t in r <==> t in log && t.reference_type == Some(refType) && t.reference_id == Some(refId)
    ensures IdsIncreasing(log) ==> forall i, j :: 0 <= i < j < |r| ==> r[i].id > r[j].id
  {
    if log == [] then []
    else
      var last := log[|log| - 1];
      var older := RowsWithReference(log[..|log| - 1], refType, refId);
      assert log == log[..|log| - 1] + [last];
      OlderRowsHaveSmallerIds(log, older);
      (if last.reference_type == Some(refType) && last.reference_id == Some(refId) then [last] else []) + older
  }

  /** Over a log whose ids grow, rows taken from all but the last row have
      smaller ids than the last row. */
  lemma OlderRowsHaveSmallerIds(log: seq<ChipsTransaction>, older: seq<ChipsTransaction>)
    requires log != [] && forall t :: t in older ==> t in log[..|log| - 1]
    ensures IdsIncreasing(log) ==> forall t :: t in older ==> t.id < log[|log| - 1].id
  {
    if IdsIncreasing(log) {
      forall t | t in older
        ensures t.id < log[|log| - 1].id
      {
        var k :| 0 <= k < |log| - 1 && log[..|log| - 1][k] == t;
        assert log[k] == t;
      }
    }
  }

  /** In a valid ledger the row ids grow along the log. */
  lemma ValidLedgerIdsIncreasing(t: LedgerTables)
    requires ValidLedger(t)
    ensures IdsIncreasing(t.log)
  {
  }

  class UserChipsService {
    var balances: map<int, ChipsBalance>
    var log: seq<ChipsTransaction>

    function Tables(): LedgerTables
      reads this
    {
      LedgerTables(balances, log)
    }

    ghost predicate Valid()
      reads this
    {
      ValidLedger(Tables())
    }

    constructor ()
      ensures Valid() && Tables() == EmptyLedger
    {
      balances, log := map[], [];
    }

    /** Puts back tables saved earlier (a database rollback). */
    method Restore(t: LedgerTables)
      requires ValidLedger(t)
      modifies this
      ensures Valid() && Tables() == t
    {
      balances, log := t.balances, t.log;
    }

    /** `getUserBalance`: refuses a falsy id; otherwise returns the user's
        row, inserting a zero row first if there is none. */
    method GetUserBalance(userId: int, now: int) returns (r: Result<ChipsBalance>)
      requires Valid()
      modifies this
      ensures Valid()
      ensures !IdGiven(userId) ==> r == Err(MissingField(UserId)) && Tables() == old(Tables())
      ensures IdGiven(userId) ==> r.Ok? && Tables() == WithBalanceRow(old(Tables()), userId, now)
      ensures r.Ok? ==> r.value == balances[userId] && r.value.balance == PriorBalance(old(Tables()), userId)
      ensures r.Ok? ==> r.value.balance == LogSum(log, userId)
      ensures r.Ok? ==> r.value.balance == r.value.total_earned - r.value.total_spent
    {
      if !IdGiven(userId) {
        return Err(MissingField(UserId));
      }
      ghost var before := Tables();
      if userId !in balances {
        balances := balances[userId := ZeroBalance(userId, now)];
      }
      WithBalanceRowValid(before, userId, now);
      if userId !in before.balances {
        SumsOfAbsentUser(before.log, userId);
      }
      BalanceIsEarnedLessSpent(Tables(), userId);
      r := Ok(balances[userId]);
    }

    /** `getTransactionById`: the row with that id, or registryNotFound. */
    method GetTransactionById(id: int) returns (r: Result<ChipsTransaction>)
      requires Valid()
      ensures !IdGiven(id) ==> r == Err(MissingField(TransactionId))
      ensures IdGiven(id) ==> (r.Ok? <==> exists i :: 0 <= i < |log| && log[i].id == id)
      ensures IdGiven(id) && r.Err? ==> r.error == RegistryNotFound
      ensures r.Ok? ==> r.value in log && r.value.id == id
    {
      if !IdGiven(id) {
        return Err(MissingField(TransactionId));
      }
      if 1 <= id <= |log| {
        r := Ok(log[id - 1]);
      } else {
        r := Err(RegistryNotFound);
      }
    }

    /** `processTransaction`: the three argument checks, then the database
        procedure, whose verdict is `procedureAccepts`. */
    method ProcessTransaction(data: TransactionRequest, procedureAccepts: bool, now: int) returns (r: Result<real>)
      requires Valid()
      modifies this
      ensures Valid()
      ensures r.Ok? <==> RequestComplete(data) && procedureAccepts
      ensures !IdGiven(data.user_id) ==> r == Err(MissingField(UserId))
      ensures r.Err? ==> Tables() == old(Tables())
      ensures r.Ok? ==> Tables() == ApplyTransaction(old(Tables()), data, now)
      ensures r.Ok? ==> r.value == balances[data.user_id].balance
      ensures r.Ok? ==> r.value == PriorBalance(old(Tables()), data.user_id) + data.amount.value
    {
      if !IdGiven(data.user_id) {
        return Err(MissingField(UserId));
      }
      if data.amount.None? {
        return Err(MissingField(TransactionAmount));
      }
      if data.transaction_type.None? {
        return Err(MissingField(TransactionKind));
      }
      if !procedureAccepts {
        return Err(ProcedureFailed);
      }
      ghost var before := Tables();
      var after := ApplyTransaction(Tables(), data, now);
      ApplyTransactionValid(before, data, now);
      balances, log := after.balances, after.log;
      r := Ok(balances[data.user_id].balance);
    }

    /** `addChips`. */
    method AddChips(userId: int, amount: real, kind: TransactionType, refId: Option<int>,
                    refType: Option<string>, hash: Option<string>, procedureAccepts: bool, now: int)
      returns (r: Result<real>)
      requires Valid()
      modifies this
      ensures Valid()
      ensures r.Ok? <==> amount > 0.0 && IdGiven(userId) && procedureAccepts
      ensures amount <= 0.0 ==> r == Err(NonPositiveAmount)
      ensures r.Err? ==> Tables() == old(Tables())
      ensures r.Ok? ==> Tables() == ApplyTransaction(old(Tables()), TransactionRequest(userId, Some(amount), Some(kind), refId, refType, hash), now)
      ensures r.Ok? ==> r.value == PriorBalance(old(Tables()), userId) + amount
    {
      var request := CreditRequest(userId, amount, kind, refId, refType, hash);
      if request.Err? {
        return Err(request.error);
      }
      r := ProcessTransaction(request.value, procedureAccepts, now);
    }

    /** `removeChips`. */
    method RemoveChips(userId: int, amount: real, kind: TransactionType, refId: Option<int>,
                       refType: Option<string>, hash: Option<string>, procedureAccepts: bool, now: int)
      returns (r: Result<real>)
      requires Valid()
      modifies this
      ensures Valid()
      ensures r.Ok? <==> amount > 0.0 && IdGiven(userId) && procedureAccepts
      ensures amount <= 0.0 ==> r == Err(NonPositiveAmount)
      ensures r.Err? ==> Tables() == old(Tables())
      ensures r.Ok? ==> Tables() == ApplyTransaction(old(Tables()), TransactionRequest(userId, Some(-amount), Some(kind), refId, refType, hash), now)
      ensures r.Ok? ==> r.value == PriorBalance(old(Tables()), userId) - amount
    {
      var request := DebitRequest(userId, amount, kind, refId, refType, hash);
      if request.Err? {
        return Err(request.error);
      }
      r := ProcessTransaction(request.value, procedureAccepts, now);
    }

    /** `getTransactionsByReference`: both parts of the reference are
        required; the answer is every row carrying it, newest first. */
    method GetTransactionsByReference(refType: string, refId: int) returns (r: Result<seq<ChipsTransaction>>)
      requires Valid()
      ensures refType == "" ==> r == Err(MissingField(ReferenceType))
      ensures refType != "" && !IdGiven(refId) ==> r == Err(MissingField(ReferenceId))
      ensures r.Ok? <==> refType != "" && IdGiven(refId)
      ensures r.Ok? ==> forall t :: t in r.value <==>
        t in log && t.reference_type == Some(refType) && t.reference_id == Some(refId)
      ensures r.Ok? ==> forall i, j :: 0 <= i < j < |r.value| ==> r.value[i].id > r.value[j].id
    {
      ValidLedgerIdsIncreasing(Tables());
      if refType == "" {
        return Err(MissingField(ReferenceType));
      }
      if !IdGiven(refId) {
        return Err(MissingField(ReferenceId));
      }
      r := Ok(RowsWithReference(log, refType, refId));
    }
  }
}

=== FILE: chips_types.dfy ===
/** Records of the chips ledger: a balance row per user, the transaction
    log, and the request handed to the transaction procedure. */
module ChipsTypes {
  import opened Common

  datatype TransactionType =
    | StakeReward
    | BetPlaced
    | BetWon
    | QuestReward
    | AdminAdjustment
    | Purchase
    | TransferIn
    | TransferOut
    | Other

  /** A row of the balance table. */
  datatype ChipsBalance = ChipsBalance(
    user_id: int,
    balance: real,
    total_earned: real,
    total_spent: real,
    last_updated: int)

  /** A row of the transaction log; `amount` is signed. */
  datatype ChipsTransaction = ChipsTransaction(
    id: int,
    user_id: int,
    amount: real,
    balance_before: real,
    balance_after: real,
    transaction_type: TransactionType,
    reference_id: Option<int>,
    reference_type: Option<string>,
    transaction_hash: Option<string>,
    created_at: int)

  /** What `processTransaction` receives. `amount` and `transaction_type`
      are optional because the service checks that they are present. */
  datatype TransactionRequest = TransactionRequest(
    user_id: int,
    amount: Option<real>,
    transaction_type: Option<TransactionType>,
    reference_id: Option<int>,
    reference_type: Option<string>,
    transaction_hash: Option<string>)

  /** The ledger tables as one value: what a rollback restores. */
  datatype LedgerTables = LedgerTables(balances: map<int, ChipsBalance>, log: seq<ChipsTransaction>)
}

=== FILE: common.dfy ===
/** Values shared by every service: optional values, the error taxonomy,
    results, and the JavaScript truthiness tests the services apply to
    their arguments. */
module Common {

  datatype Option<+T> = None | Some(value: T)

  /** The field named by a `missingField` error. */
  datatype Field =
    | UserId
    | MatchId
    | BetAmount
    | PotentialPayout
    | TotalOdds
    | BetKind
    | BetSelections
    | BetId
    | OptionId
    | TransactionId
    | TransactionAmount
    | TransactionKind
    | ReferenceType
    | ReferenceId
    | MarketName
    | MarketKind
    | MarketId
    | OptionKey
    | OptionLabel
    | WalletAddress

  /** Every error the modelled services throw. */
  datatype Error =
    | MissingField(field: Field)
    | SingleSelectionNeedsSingle
    | SeveralSelectionsNeedMultiple
    | OddsMismatch
    | PayoutMismatch
    | AccessDenied
    | RegistryNotFound
    | OnlyPendingCancellable
    | OnlyPendingOrCancelledDeletable
    | NoValidDataFound
    | InsufficientChips
    | NonPositiveAmount
    | RegistryAlreadyExists
    | UserAlreadyExists
    | ProcedureFailed

  /** The value of a call that either returns or throws. */
  datatype Result<+T> = Ok(value: T) | Err(error: Error)

  /** A call that returns nothing or throws. */
  datatype Outcome = Pass | Fail(error: Error)

  /** `!id` is false for a numeric id exactly when it is not 0. */
  predicate IdGiven(id: int) {
    id != 0
  }

  /** An optional numeric argument is truthy when present and not 0. */
  predicate OptIdGiven(id: Option<int>) {
    id.Some? && id.value != 0
  }

  /** An optional string argument is truthy when present and not empty. */
  predicate TextGiven(s: Option<string>) {
    s.Some? && s.value != ""
  }

  /** `Math.abs` on reals. */
  function Abs(x: real): (r: real)
    ensures r >= 0.0
    ensures r == x || r == -x
  {
    if x < 0.0 then -x else x
  }

  /** The rounding margin accepted by the odds and payout checks. */
  const Tolerance: real := 0.01
}

=== FILE: odds.dfy ===
/** The betting catalogue: markets, each with a unique name, and the
    options offered in them. Creates insert a new row; updates copy only
    the supplied fields and refuse an update with nothing to write. */
module Odds {
  import opened Common

  datatype MarketType = SingleMarket | OverUnder | MultipleOverUnder

  datatype Market = Market(id: int, name: string, kind: MarketType, description: Option<string>, is_active: bool)

  datatype BettingOption = BettingOption(
    id: int,
    market_id: int,
    option_key: string,
    option_label: string,
    description: Option<string>,
    is_active: bool)

  /** The payload of a new market; an empty name or an absent type is
      refused. */
  datatype MarketInsert = MarketInsert(
    name: string,
    kind: Option<MarketType>,
    description: Option<string>,
    is_active: Option<bool>)

  datatype OptionInsert = OptionInsert(
    market_id: int,
    option_key: string,
    option_label: string,
    description: Option<string>,
    is_active: Option<bool>)

  /** Update payloads (and the column sets they turn into): an absent
      field asks for no change. */
  datatype MarketUpdate = MarketUpdate(
    name: Option<string>,
    kind: Option<MarketType>,
    description: Option<string>,
    is_active: Option<bool>)

  datatype OptionUpdate = OptionUpdate(
    option_key: Option<string>,
    option_label: Option<string>,
    description: Option<string>,
    is_active: Option<bool>)

  const NoMarketChange: MarketUpdate := MarketUpdate(None, None, None, None)
  const NoOptionChange: OptionUpdate := OptionUpdate(None, None, None, None)

  /** Some market is called `name`. */
  predicate NameTaken(markets: map<int, Market>, name: string) {
    exists k :: k in markets && markets[k].name == name
  }

  /** A market other than `id` is called `name`. */
  predicate NameHeldByOther(markets: map<int, Market>, name: string, id: int) {
    exists k :: k in markets && markets[k].name == name && k != id
  }

  /** Market names are unique. */
  predicate UniqueNames(markets: map<int, Market>) {
    forall a, b :: a in markets && b in markets && markets[a].name == markets[b].name ==> a == b
  }

  /** A market can always keep its own name. */
  lemma KeepingOwnNameAllowed(markets: map<int, Market>, id: int)
    requires UniqueNames(markets) && id in markets
    ensures !NameHeldByOther(markets, markets[id].name, id)
  {
  }

  /** The columns `updateMarket` writes: a non-empty name or type, and a
      description or flag that is present. */
  function MarketChanges(data: MarketUpdate): (p: MarketUpdate)
    ensures p == NoMarketChange <==>
      !TextGiven(data.name) && data.kind.None? && data.description.None? && data.is_active.None?
    ensures p.name == (if TextGiven(data.name) then data.name else None)
    ensures p.description == data.description && p.is_active == data.is_active && p.kind == data.kind
  {
    MarketUpdate(if TextGiven(data.name) then data.name else None, data.kind, data.description, data.is_active)
  }

  /** The columns `updateOption` writes. */
  function OptionChanges(data: OptionUpdate): (p: OptionUpdate)
    ensures p == NoOptionChange <==>
      !TextGiven(data.option_key) && !TextGiven(data.option_label) && data.description.None? && data.is_active.None?
    ensures p.option_key == (if TextGiven(data.option_key) then data.option_key else None)
    ensures p.option_label == (if TextGiven(data.option_label) then data.option_label else None)
    ensures p.description == data.description && p.is_active == data.is_active
  {
    OptionUpdate(if TextGiven(data.option_key) then data.option_key else None,
                 if TextGiven(data.option_label) then data.option_label else None,
                 data.description, data.is_active)
  }

  /** A stored market after a set of columns is written to it: the written
      columns take their new values and every other keeps its old one. */
  function PatchMarket(m: Market, p: MarketUpdate): (m': Market)
    ensures m'.id == m.id
    ensures p.name.Some? ==> m'.name == p.name.value
    ensures p.kind.Some? ==> m'.kind == p.kind.value
    ensures p.description.Some? ==> m'.description == p.description
    ensures p.is_active.Some? ==> m'.is_active == p.is_active.value
    ensures p.name.None? ==> m'.name == m.name
    ensures p.kind.None? ==> m'.kind == m.kind
    ensures p.description.None? ==> m'.description == m.description
    ensures p.is_active.None? ==> m'.is_active == m.is_active
    ensures p == NoMarketChange ==> m' == m
  {
    Market(m.id,
           if p.name.Some? then p.name.value else m.name,
           if p.kind.Some? then p.kind.value else m.kind,
           if p.description.Some? then p.description else m.description,
           if p.is_active.Some? then p.is_active.value else m.is_active)
  }

  function PatchOption(o: BettingOption, p: OptionUpdate): (o': BettingOption)
    ensures o'.id == o.id && o'.market_id == o.market_id
    ensures p.option_key.Some? ==> o'.option_key == p.option_key.value
    ensures p.option_label.Some? ==> o'.option_label == p.option_label.value
    ensures p.description.Some? ==> o'.description == p.description
    ensures p.is_active.Some? ==> o'.is_active == p.is_active.value
    ensures p.option_key.None? ==> o'.option_key == o.option_key
    ensures p.option_label.None? ==> o'.option_label == o.option_label
    ensures p.description.None? ==> o'.description == o.description
    ensures p.is_active.None? ==> o'.is_active == o.is_active
    ensures p == NoOptionChange ==> o' == o
  {
    BettingOption(o.id, o.market_id,
                  if p.option_key.Some? then p.option_key.value else o.option_key,
                  if p.option_label.Some? then p.option_label.value else o.option_label,
                  if p.description.Some? then p.description else o.description,
                  if p.is_active.Some? then p.is_active.value else o.is_active)
  }

  class OddsService {
    var markets: map<int, Market>
    var options: map<int, BettingOption>
    var nextMarketId: int
    var nextOptionId: int

    /** Ids are positive, below the next id and stored in their rows;
        market names are unique and non-empty; every option belongs to a
        stored market. */
    ghost predicate Valid()
      reads this
    {
      && nextMarketId > 0 && nextOptionId > 0
      && (forall k :: k in markets ==> 0 < k < nextMarketId && markets[k].id == k && markets[k].name != "")
      && (forall k :: k in options ==> 0 < k < nextOptionId && options[k].id == k && options[k].market_id in markets)
      && UniqueNames(markets)
    }

    constructor ()
      ensures Valid() && markets == map[] && options == map[]
    {
      markets, options := map[], map[];
      nextMarketId, nextOptionId := 1, 1;
    }

    /** `createMarket`. */
    method CreateMarket(data: MarketInsert) returns (r: Result<int>)
      requires Valid()
      modifies this
      ensures Valid()
      ensures r.Ok? <==> data.name != "" && data.kind.Some? && !NameTaken(old(markets), data.name)
      ensures data.name == "" ==> r == Err(MissingField(MarketName))
      ensures data.name != "" && data.kind.None? ==> r == Err(MissingField(MarketKind))
      ensures data.name != "" && data.kind.Some? && NameTaken(old(markets), data.name) ==> r == Err(RegistryAlreadyExists)
      ensures r.Err? ==> markets == old(markets) && nextMarketId == old(nextMarketId)
      ensures r.Ok? ==> r.value !in old(markets) && markets.Keys == old(markets).Keys + {r.value}
      ensures r.Ok? ==> forall k :: k in old(markets) ==> markets[k] == old(markets)[k]
      ensures r.Ok? ==> (markets[r.value] ==
        Market(r.value, data.name, data.kind.value, data.description, data.is_active.None? || data.is_active.value))
      ensures options == old(options)
    {
      if data.name == "" {
        return Err(MissingField(MarketName));
      }
      if data.kind.None? {
        return Err(MissingField(MarketKind));
      }
      if exists k :: k in markets && markets[k].name == data.name {
        return Err(RegistryAlreadyExists);
      }
      var id := nextMarketId;
      var active := if data.is_active.Some? then data.is_active.value else true;
      markets := markets[id := Market(id, data.name, data.kind.value, data.description, active)];
      nextMarketId := nextMarketId + 1;
      r := Ok(id);
    }

    /** `updateMarket`: a new name held by another market is refused; the
        write touches the market with that id, and no row when there is
        none. */
    method UpdateMarket(data: MarketUpdate, id: int) returns (r: Outcome)
      requires Valid()
      modifies this
      ensures Valid()
      ensures r.Pass? <==>
        !(TextGiven(data.name) && NameHeldByOther(old(markets), data.name.value, id)) && MarketChanges(data) != NoMarketChange
      ensures TextGiven(data.name) && NameHeldByOther(old(markets), data.name.value, id) ==> r == Fail(RegistryAlreadyExists)
      ensures MarketChanges(data) == NoMarketChange ==> r == Fail(NoValidDataFound)
      ensures r.Fail? || id !in old(markets) ==> markets == old(markets)
      ensures r.Pass? && id in old(markets) ==> markets == old(markets)[id := PatchMarket(old(markets)[id], MarketChanges(data))]
      ensures options == old(options) && nextMarketId == old(nextMarketId)
    {
      var toUpdate := NoMarketChange;
      if TextGiven(data.name) {
        if exists k :: k in markets && markets[k].name == data.name.value && k != id {
          return Fail(RegistryAlreadyExists);
        }
        toUpdate := toUpdate.(name := data.name);
      }
      if data.kind.Some? {
        toUpdate := toUpdate.(kind := data.kind);
      }
      if data.description.Some? {
        toUpdate := toUpdate.(description := data.description);
      }
      if data.is_active.Some? {
        toUpdate := toUpdate.(is_active := data.is_active);
      }
      if toUpdate == NoMarketChange {
        return Fail(NoValidDataFound);
      }
      assert toUpdate == MarketChanges(data);
      if id in markets {
        markets := markets[id := PatchMarket(markets[id], toUpdate)];
      }
      r := Pass;
    }

    /** `createOption`: the option's market must be stored. */
    method CreateOption(data: OptionInsert) returns (r: Result<int>)
      requires Valid()
      modifies this
      ensures Valid()
      ensures r.Ok? <==> IdGiven(data.market_id) && data.option_key != "" && data.option_label != "" && data.market_id in old(markets)
      ensures !IdGiven(data.market_id) ==> r == Err(MissingField(MarketId))
      ensures IdGiven(data.market_id) && data.option_key == "" ==> r == Err(MissingField(OptionKey))
      ensures IdGiven(data.market_id) && data.option_key != "" && data.option_label == "" ==> r == Err(MissingField(OptionLabel))
      ensures IdGiven(data.market_id) && data.option_key != "" && data.option_label != "" && data.market_id !in old(markets)
        ==> r == Err(RegistryNotFound)
      ensures r.Err? ==> options == old(options) && nextOptionId == old(nextOptionId)
      ensures r.Ok? ==> r.value !in old(options) && options.Keys == old(options).Keys + {r.value}
      ensures r.Ok? ==> forall k :: k in old(options) ==> options[k] == old(options)[k]
      ensures r.Ok? ==> (options[r.value] ==
        BettingOption(r.value, data.market_id, data.option_key, data.option_label, data.description,
                      data.is_active.None? || data.is_active.value))
      ensures markets == old(markets)
    {
      if !IdGiven(data.market_id) {
        return Err(MissingField(MarketId));
      }
      if data.option_key == "" {
        return Err(MissingField(OptionKey));
      }
      if data.option_label == "" {
        return Err(MissingField(OptionLabel));
      }
      if data.market_id !in markets {
        return Err(RegistryNotFound);
      }
      var id := nextOptionId;
      var active := if data.is_active.Some? then data.is_active.value else true;
      options := options[id := BettingOption(id, data.market_id, data.option_key, data.option_label, data.description, active)];
      nextOptionId := nextOptionId + 1;
      r := Ok(id);
    }

    /** `updateOption`. */
    method UpdateOption(data: OptionUpdate, id: int) returns (r: Outcome)
      requires Valid()
      modifies this
      ensures Valid()
      ensures r.Pass? <==> OptionChanges(data) != NoOptionChange
      ensures r.Fail? ==> r == Fail(NoValidDataFound)
      ensures r.Fail? || id !in old(options) ==> options == old(options)
      ensures r.Pass? && id in old(options) ==> options == old(options)[id := PatchOption(old(options)[id], OptionChanges(data))]
      ensures markets == old(markets) && nextOptionId == old(nextOptionId)
    {
      var toUpdate := NoOptionChange;
      if TextGiven(data.option_key) {
        toUpdate := toUpdate.(option_key := data.option_key);
      }
      if TextGiven(data.option_label) {
        toUpdate := toUpdate.(option_label := data.option_label);
      }
      if data.description.Some? {
        toUpdate := toUpdate.(description := data.description);
      }
      if data.is_active.Some? {
        toUpdate := toUpdate.(is_active := data.is_active);
      }
      if toUpdate == NoOptionChange {
        return Fail(NoValidDataFound);
      }
      assert toUpdate == OptionChanges(data);
      if id in options {
        options := options[id := PatchOption(options[id], toUpdate)];
      }
      r := Pass;
    }
  }
}

=== FILE: scenarios.dfy ===
/** Worked runs of the controller from an empty database: a bet placed and
    won, a bet whose odds do not multiply out, a bet larger than the
    balance, and a won bet reopened and won again. Each user is first
    funded by an administrator's adjustment. */
module Scenarios {
  import opened Common
  import opened BetTypes
  import opened BetRules
  import opened ChipsTypes
  import opened Chips
  import opened Settlement

  const Player: int := 7
  const Admin: int := 1

  /** A single bet of 10 on one leg at 2.5, paying 25. */
  const SingleBet: BetInsert :=
    BetInsert(0, 3, 10.0, 25.0, 2.5, "single", None, None, None, [DetailInsert(11, 2.5)])

  /** A multiple bet of 10 on legs at 2.0 and 1.5 announcing total odds of
      2.9, where the legs multiply out to 3.0. */
  const MisquotedBet: BetInsert :=
    BetInsert(0, 3, 10.0, 29.0, 2.9, "multiple", None, None, None, [DetailInsert(11, 2.0), DetailInsert(12, 1.5)])

  lemma SingleBetAccepted()
    ensures ValidateBet(Placement(Player, SingleBet)).Pass?
  {
    var odds := OddValues(SingleBet.details);
    assert odds == [2.5];
    assert odds[..0] == [];
    assert Product(odds) == 2.5;
  }

  lemma MisquotedBetRejected()
    ensures ValidateBet(Placement(Player, MisquotedBet)) == Fail(OddsMismatch)
  {
    var odds := OddValues(MisquotedBet.details);
    assert odds == [2.0, 1.5];
    assert odds[..1] == [2.0];
    assert odds[..1][..0] == [];
    assert Product(odds[..1]) == 2.0;
    assert Product(odds) == 3.0;
  }

  /** A new controller in which the player, funded with 100 chips by an
      administrator's adjustment, has placed the single bet. */
  method PlacedSingleBet() returns (c: UserBetController, id: int)
    ensures c.Valid() && fresh(c.service) && fresh(c.chipsService)
    ensures id in c.service.bets && c.service.bets[id].user_id == Player && c.service.bets[id].status == Pending
    ensures c.service.bets[id].potential_payout == 25.0
    ensures PriorBalance(c.chipsService.Tables(), Player) == 90.0 && |c.service.history| == 1
  {
    c := new UserBetController();
    var funded := c.chipsService.AddChips(Player, 100.0, AdminAdjustment, None, None, None, true, 0);
    SingleBetAccepted();
    var placed := c.CreateBet(Player, SingleBet, true, 1);
    id := placed.value;
  }

  /** The administrator settles the placed bet as won with a result payout
      of 25: the stake has left the balance, the payout enters it, and the
      history holds the creation row and the move to won. */
  method PlaceAndWin() returns (afterPlacing: real, afterWinning: real, historyRows: nat)
    ensures afterPlacing == 90.0 && afterWinning == 115.0 && historyRows == 2
  {
    var c, id := PlacedSingleBet();
    afterPlacing := PriorBalance(c.chipsService.Tables(), Player);
    var settled := c.AdminUpdateBet(Admin, id, BetUpdate(Some(Won), Some(25.0), None, None), true, 2);
    afterWinning := PriorBalance(c.chipsService.Tables(), Player);
    historyRows := |c.service.history|;
  }

  /** The misquoted bet is refused by the odds check after the balance
      check passes: no bet, leg or history row is written, and the only
      ledger row is the funding. */
  method MisquotedOddsRejected() returns (outcome: Result<int>, betRows: nat, legRows: nat, historyRows: nat, ledgerRows: nat)
    ensures outcome == Err(OddsMismatch)
    ensures betRows == 0 && legRows == 0 && historyRows == 0 && ledgerRows == 1
  {
    var c := new UserBetController();
    var funded := c.chipsService.AddChips(Player, 100.0, AdminAdjustment, None, None, None, true, 0);
    MisquotedBetRejected();
    outcome := c.CreateBet(Player, MisquotedBet, true, 1);
    betRows, legRows, historyRows := |c.service.bets|, |c.service.details|, |c.service.history|;
    ledgerRows := |c.chipsService.log|;
  }

  /** A user holding 5 chips cannot stake 10: the placement is refused and
      the balance stays 5. */
  method ShortBalanceRejected() returns (outcome: Result<int>, balance: real, betRows: nat)
    ensures outcome == Err(InsufficientChips) && balance == 5.0 && betRows == 0
  {
    var c := new UserBetController();
    var funded := c.chipsService.AddChips(Player, 5.0, AdminAdjustment, None, None, None, true, 0);
    assert PriorBalance(c.chipsService.Tables(), Player) == 5.0;
    outcome := c.CreateBet(Player, SingleBet, true, 1);
    assert c.service.Tables() == InitialBetTables;
    balance := PriorBalance(c.chipsService.Tables(), Player);
    betRows := |c.service.bets|;
  }

  /** The administrator settles the bet as won, reopens it as pending and
      settles it as won again: the payout (the potential payout, since no
      result payout is sent) is credited twice. */
  method ReopenedBetPaidTwice() returns (afterFirstWin: real, afterReopening: real, afterSecondWin: real)
    ensures afterFirstWin == 115.0 && afterReopening == 115.0 && afterSecondWin == 140.0
  {
    var c, id := PlacedSingleBet();
    var won := c.AdminUpdateBet(Admin, id, BetUpdate(Some(Won), None, None, None), true, 2);
    assert c.service.bets[id].status == Won && c.service.bets[id].potential_payout == 25.0;
    afterFirstWin := PriorBalance(c.chipsService.Tables(), Player);
    var reopened := c.AdminUpdateBet(Admin, id, BetUpdate(Some(Pending), None, None, None), true, 3);
    assert c.service.bets[id].status == Pending && c.service.bets[id].potential_payout == 25.0;
    assert c.service.bets[id].user_id == Player;
    afterReopening := PriorBalance(c.chipsService.Tables(), Player);
    var wonAgain := c.AdminUpdateBet(Admin, id, BetUpdate(Some(Won), None, None, None), true, 4);
    afterSecondWin := PriorBalance(c.chipsService.Tables(), Player);
  }
}

=== FILE: settlement.dfy ===
/** The bet controller: placement, cancellation, the owner's update and the
    administrator's update, each an all-or-nothing step over the bet tables
    and the chips ledger. A database rollback is modelled by saving both
    stores' tables when the transaction starts and putting them back when a
    step inside it fails. */
module Settlement {
  import opened Common
  import opened BetTypes
  import opened BetRules
  import opened ChipsTypes
  import opened Chips
  import opened Bets

  /** The reference type of every ledger row a bet causes. */
  const BetReference: string := "bet"

  /** The reason used when the user gives none. */
  const UserCancelReason: string := "Cancelada pelo usuário"

  /** A credit the administrator's update owes a user. */
  datatype Credit = Credit(user: int, amount: real, kind: TransactionType)

  /** The payout of a won bet: `result_payout || potential_payout`, so an
      absent or zero result payout falls back to the potential payout. */
  function WonAmount(bet: Bet, resultPayout: Option<real>): real {
    if resultPayout.Some? && resultPayout.value != 0.0 then resultPayout.value else bet.potential_payout
  }

  /** The credit an administrator's update from `bet.status` to `newStatus`
      causes: the payout on a move into won, the stake on a move into
      refunded, and nothing otherwise. */
  function SettlementCredit(bet: Bet, newStatus: Option<Status>, resultPayout: Option<real>): (c: Option<Credit>)
    ensures c.Some? <==>
      (bet.status != Won && newStatus == Some(Won)) || (bet.status != Refunded && newStatus == Some(Refunded))
    ensures c.Some? ==> c.value.user == bet.user_id
    ensures c.Some? && c.value.kind == BetWon <==> bet.status != Won && newStatus == Some(Won)
    ensures c.Some? && c.value.kind == BetWon ==> c.value.amount == WonAmount(bet, resultPayout)
    ensures c.Some? && c.value.kind != BetWon ==> c == Some(Credit(bet.user_id, bet.bet_amount, Other))
    ensures newStatus == Some(Pending) || newStatus == Some(Lost) || newStatus == Some(Cancelled) ==> c.None?
  {
    if bet.status != Won && newStatus == Some(Won) then
      Some(Credit(bet.user_id, WonAmount(bet, resultPayout), BetWon))
    else if bet.status != Refunded && newStatus == Some(Refunded) then
      Some(Credit(bet.user_id, bet.bet_amount, Other))
    else
      None
  }

  /** The ledger request a settlement credit becomes. */
  function SettlementRequest(c: Credit, betId: int): TransactionRequest {
    TransactionRequest(c.user, Some(c.amount), Some(c.kind), Some(betId), Some(BetReference), None)
  }

  /** Whether the ledger would take the credit. */
  predicate Payable(c: Option<Credit>, procedureAccepts: bool) {
    c.Some? ==> c.value.amount > 0.0 && IdGiven(c.value.user) && procedureAccepts
  }

  /** The placement payload: the user comes from the session, and no
      status is sent, so the bet starts pending. */
  function Placement(userId: int, req: BetInsert): (body: BetInsert)
    ensures body.user_id == userId && body.status == None
  {
    req.(user_id := userId, status := None)
  }

  // ---------------------------------------------------------------------
  // Payouts over a run of administrator updates

  /** The number of won payouts administrator updates setting the statuses
      `path[0]`, `path[1]`, ... in turn cause on `bet`. */
  function WonPayouts(bet: Bet, path: seq<Status>): nat
    decreases |path|
  {
    if path == [] then 0
    else
      var c := SettlementCredit(bet, Some(path[0]), None);
      (if c.Some? && c.value.kind == BetWon then 1 else 0) + WonPayouts(bet.(status := path[0]), path[1..])
  }

  /** The status a run of updates ends in. */
  function FinalStatus(start: Status, path: seq<Status>): Status {
    if path == [] then start else path[|path| - 1]
  }

  /** Payouts over two runs in a row add up. */
  lemma {:induction false} WonPayoutsConcat(bet: Bet, p: seq<Status>, q: seq<Status>)
    ensures WonPayouts(bet, p + q) == WonPayouts(bet, p) + WonPayouts(bet.(status := FinalStatus(bet.status, p)), q)
    decreases |p|
  {
    if p != [] {
      var next := bet.(status := p[0]);
      assert (p + q)[0] == p[0];
      assert (p + q)[1..] == p[1..] + q;
      assert WonPayouts(bet, p + q) == (if bet.status != Won && p[0] == Won then 1 else 0) + WonPayouts(next, p[1..] + q);
      assert WonPayouts(bet, p) == (if bet.status != Won && p[0] == Won then 1 else 0) + WonPayouts(next, p[1..]);
      WonPayoutsConcat(next, p[1..], q);
      assert FinalStatus(next.status, p[1..]) == FinalStatus(bet.status, p);
      assert next.(status := FinalStatus(bet.status, p)) == bet.(status := FinalStatus(bet.status, p));
    } else {
      assert p + q == q;
      assert bet.(status := FinalStatus(bet.status, p)) == bet;
    }
  }

  /** While a bet stays won, further updates to won pay nothing. */
  lemma {:induction false} NoPayoutWhileWon(bet: Bet, path: seq<Status>)
    requires bet.status == Won
    requires forall i :: 0 <= i < |path| ==> path[i] == Won
    ensures WonPayouts(bet, path) == 0
    decreases |path|
  {
    if path != [] {
      NoPayoutWhileWon(bet.(status := path[0]), path[1..]);
    }
  }

  /** A run in which a won bet never leaves won pays out at most once. */
  lemma {:induction false} PayoutAtMostOnceUnlessReopened(bet: Bet, path: seq<Status>)
    requires bet.status == Won ==> forall i :: 0 <= i < |path| ==> path[i] == Won
    requires forall i, j :: 0 <= i < j < |path| && path[i] == Won ==> path[j] == Won
    ensures WonPayouts(bet, path) <= 1
    decreases |path|
  {
    if path != [] {
      var next := bet.(status := path[0]);
      if path[0] == Won {
        assert forall i :: 0 <= i < |path[1..]| ==> path[1..][i] == path[i + 1];
        NoPayoutWhileWon(next, path[1..]);
      } else {
        assert forall i, j :: 0 <= i < j < |path[1..]| && path[1..][i] == Won ==> path[1..][j] == Won by {
          forall i, j | 0 <= i < j < |path[1..]| && path[1..][i] == Won
            ensures path[1..][j] == Won
          {
            assert path[i + 1] == Won;
          }
        }
        PayoutAtMostOnceUnlessReopened(next, path[1..]);
      }
    }
  }

  /** As written, the payout is guarded only by "the old status is not
      won": every time a won bet is reopened and set to won again, it pays
      out again. */
  lemma EveryReopeningPaysAgain(bet: Bet, path: seq<Status>)
    requires FinalStatus(bet.status, path) == Won
    ensures WonPayouts(bet, path + [Pending, Won]) == WonPayouts(bet, path) + 1
  {
    WonPayoutsConcat(bet, path, [Pending, Won]);
    var last := bet.(status := Won);
    assert [Pending, Won][1..] == [Won];
    assert WonPayouts(last.(status := Pending), [Won]) == 1;
  }

  /** The concrete double payout: pending, won, pending, won. */
  lemma WonPendingWonPaysTwice(bet: Bet)
    requires bet.status == Pending
    ensures WonPayouts(bet, [Won, Pending, Won]) == 2
  {
    assert WonPayouts(bet, [Won]) == 1;
    EveryReopeningPaysAgain(bet, [Won]);
    assert [Won] + [Pending, Won] == [Won, Pending, Won];
  }

  // ---------------------------------------------------------------------
  // The controller

  class UserBetController {
    const service: UserBetService
    const chipsService: UserChipsService

    ghost predicate Valid()
      reads service, chipsService
    {
      service.Valid() && chipsService.Valid()
    }

    constructor ()
      ensures Valid() && fresh(service) && fresh(chipsService)
      ensures service.Tables() == InitialBetTables && chipsService.Tables() == EmptyLedger
    {
      service := new UserBetService();
      chipsService := new UserChipsService();
    }

    /** `createBet`: the balance pre-check (which may insert the user's
        zero balance row), then, in one transaction, the bet and the debit
        of its stake. A failure inside the transaction rolls both back. */
    method CreateBet(userId: int, req: BetInsert, procedureAccepts: bool, now: int) returns (r: Result<int>)
      requires Valid()
      modifies service, chipsService
      ensures Valid()
      ensures r.Ok? <==>
        && IdGiven(userId)
        && PriorBalance(old(chipsService.Tables()), userId) >= req.bet_amount
        && ValidateBet(Placement(userId, req)).Pass?
        && procedureAccepts
      ensures !IdGiven(userId) ==> r == Err(MissingField(UserId))
      ensures IdGiven(userId) && PriorBalance(old(chipsService.Tables()), userId) < req.bet_amount
        ==> r == Err(InsufficientChips)
      ensures (IdGiven(userId) && PriorBalance(old(chipsService.Tables()), userId) >= req.bet_amount
               && ValidateBet(Placement(userId, req)).Fail?) ==> r == Err(ValidateBet(Placement(userId, req)).error)
      ensures r.Err? ==> service.Tables() == old(service.Tables())
      ensures r.Err? && !IdGiven(userId) ==> chipsService.Tables() == old(chipsService.Tables())
      ensures r.Err? && IdGiven(userId) ==>
        chipsService.Tables() == WithBalanceRow(old(chipsService.Tables()), userId, now)
      ensures r.Ok? ==> r.value == old(service.nextBetId)
      ensures r.Ok? ==> service.Tables() == Created(old(service.Tables()), Placement(userId, req), now)
      ensures r.Ok? ==> service.bets[r.value].status == Pending && service.bets[r.value].user_id == userId
      ensures r.Ok? ==> chipsService.Tables() == ApplyTransaction(
        WithBalanceRow(old(chipsService.Tables()), userId, now),
        TransactionRequest(userId, Some(-req.bet_amount), Some(BetPlaced), Some(r.value), Some(BetReference), None), now)
      ensures r.Ok? ==>
        PriorBalance(chipsService.Tables(), userId) == PriorBalance(old(chipsService.Tables()), userId) - req.bet_amount
      ensures r.Ok? ==> PriorBalance(chipsService.Tables(), userId) >= 0.0
    {
      var body := Placement(userId, req);
      var balance := chipsService.GetUserBalance(userId, now);
      if balance.Err? {
        return Err(balance.error);
      }
      if balance.value.balance < body.bet_amount {
        return Err(InsufficientChips);
      }
      var savedBets := service.Tables();
      var savedLedger := chipsService.Tables();
      var created := service.CreateBet(body, now);
      if created.Err? {
        service.Restore(savedBets);
        chipsService.Restore(savedLedger);
        return Err(created.error);
      }
      var debited := chipsService.RemoveChips(userId, body.bet_amount, BetPlaced, Some(created.value),
                                              Some(BetReference), None, procedureAccepts, now);
      if debited.Err? {
        service.Restore(savedBets);
        chipsService.Restore(savedLedger);
        return Err(debited.error);
      }
      r := Ok(created.value);
    }

    /** `cancelBet`: only the user's pending bet can be cancelled; then,
        in one transaction, the bet becomes cancelled and the stake is
        credited back. */
    method CancelBet(userId: int, betId: int, reason: Option<string>, procedureAccepts: bool, now: int)
      returns (r: Outcome)
      requires Valid()
      modifies service, chipsService
      ensures Valid()
      ensures r.Pass? <==>
        && IdGiven(betId) && betId in old(service.bets)
        && Visible(old(service.bets)[betId], Some(userId))
        && old(service.bets)[betId].status == Pending
        && old(service.bets)[betId].bet_amount > 0.0 && IdGiven(userId) && procedureAccepts
      ensures IdGiven(betId) && betId !in old(service.bets) ==> r == Fail(RegistryNotFound)
      ensures (IdGiven(betId) && betId in old(service.bets) && Visible(old(service.bets)[betId], Some(userId))
               && old(service.bets)[betId].status != Pending) ==> r == Fail(OnlyPendingCancellable)
      ensures r.Fail? ==> service.Tables() == old(service.Tables()) && chipsService.Tables() == old(chipsService.Tables())
      ensures r.Pass? ==> service.Tables() == ApplyUpdate(old(service.Tables()), betId,
        CancelUpdate(Some(if TextGiven(reason) then reason.value else UserCancelReason)), None, now)
      ensures r.Pass? ==> service.bets[betId].status == Cancelled
      ensures r.Pass? ==> chipsService.Tables() == ApplyTransaction(old(chipsService.Tables()),
        TransactionRequest(userId, Some(old(service.bets)[betId].bet_amount), Some(Other), Some(betId), Some(BetReference), None), now)
      ensures r.Pass? ==>
        PriorBalance(chipsService.Tables(), userId) == PriorBalance(old(chipsService.Tables()), userId) + old(service.bets)[betId].bet_amount
    {
      var why := if TextGiven(reason) then reason.value else UserCancelReason;
      var fetched := service.FetchBet(betId, Some(userId));
      if fetched.Err? {
        return Fail(fetched.error);
      }
      if fetched.value.None? {
        return Fail(RegistryNotFound);
      }
      var bet := fetched.value.value;
      if bet.status != Pending {
        return Fail(OnlyPendingCancellable);
      }
      var savedBets := service.Tables();
      var savedLedger := chipsService.Tables();
      // The service repeats the lookup and the pending check just made, so
      // the cancellation itself cannot fail here.
      var cancelled := service.CancelBet(betId, Some(userId), Some(why), now);
      assert cancelled.Pass?;
      var credited := chipsService.AddChips(userId, bet.bet_amount, Other, Some(betId), Some(BetReference), None,
                                            procedureAccepts, now);
      if credited.Err? {
        service.Restore(savedBets);
        chipsService.Restore(savedLedger);
        return Fail(credited.error);
      }
      r := Pass;
    }

    /** `updateBet` on the owner's path: the bet must be the user's; the
        update touches the bet tables only, never the ledger, whatever
        status it sets. */
    method UpdateBet(userId: int, betId: int, body: BetUpdate, now: int) returns (r: Outcome)
      requires Valid()
      modifies service
      ensures Valid()
      ensures r.Pass? <==>
        && IdGiven(betId) && betId in old(service.bets)
        && Visible(old(service.bets)[betId], Some(userId))
        && HasEffect(old(service.bets)[betId].status, body)
      ensures IdGiven(betId) && betId !in old(service.bets) ==> r == Fail(RegistryNotFound)
      ensures r.Fail? ==> service.Tables() == old(service.Tables())
      ensures r.Pass? ==> service.Tables() == ApplyUpdate(old(service.Tables()), betId, body, Some(userId), now)
      ensures chipsService.Tables() == old(chipsService.Tables())
    {
      var fetched := service.FetchBet(betId, Some(userId));
      if fetched.Err? {
        return Fail(fetched.error);
      }
      if fetched.value.None? {
        return Fail(RegistryNotFound);
      }
      var saved := service.Tables();
      r := service.UpdateBet(body, betId, Some(userId), Some(userId), now);
      if r.Fail? {
        service.Restore(saved);
      }
    }

    /** `adminUpdateBet`: any bet, then, in one transaction, the update and
        the credit it causes (`SettlementCredit`). */
    method AdminUpdateBet(adminId: int, betId: int, body: BetUpdate, procedureAccepts: bool, now: int)
      returns (r: Outcome)
      requires Valid()
      modifies service, chipsService
      ensures Valid()
      ensures r.Pass? <==>
        && IdGiven(betId) && betId in old(service.bets)
        && HasEffect(old(service.bets)[betId].status, body)
        && Payable(SettlementCredit(old(service.bets)[betId], body.status, body.result_payout), procedureAccepts)
      ensures !IdGiven(betId) ==> r == Fail(MissingField(BetId))
      ensures IdGiven(betId) && betId !in old(service.bets) ==> r == Fail(RegistryNotFound)
      ensures r.Fail? ==> service.Tables() == old(service.Tables()) && chipsService.Tables() == old(chipsService.Tables())
      ensures r.Pass? ==> service.Tables() == ApplyUpdate(old(service.Tables()), betId, body, Some(adminId), now)
      ensures r.Pass? && SettlementCredit(old(service.bets)[betId], body.status, body.result_payout).None?
        ==> chipsService.Tables() == old(chipsService.Tables())
      ensures r.Pass? && SettlementCredit(old(service.bets)[betId], body.status, body.result_payout).Some?
        ==> chipsService.Tables() == ApplyTransaction(old(chipsService.Tables()),
              SettlementRequest(SettlementCredit(old(service.bets)[betId], body.status, body.result_payout).value, betId),
              now)
    {
      var fetched := service.FetchBet(betId, None);
      if fetched.Err? {
        return Fail(fetched.error);
      }
      if fetched.value.None? {
        return Fail(RegistryNotFound);
      }
      var bet := fetched.value.value;
      var savedBets := service.Tables();
      var savedLedger := chipsService.Tables();
      r := service.UpdateBet(body, betId, None, Some(adminId), now);
      if r.Fail? {
        service.Restore(savedBets);
        chipsService.Restore(savedLedger);
        return;
      }
      ghost var credit := SettlementCredit(bet, body.status, body.result_payout);
      var credited: Result<real> := Ok(0.0);
      if bet.status != Won && body.status == Some(Won) {
        var payout := if body.result_payout.Some? && body.result_payout.value != 0.0
                      then body.result_payout.value else bet.potential_payout;
        assert credit == Some(Credit(bet.user_id, payout, BetWon));
        credited := chipsService.AddChips(bet.user_id, payout, BetWon, Some(betId), Some(BetReference), None,
                                          procedureAccepts, now);
      } else if bet.status != Refunded && body.status == Some(Refunded) {
        assert credit == Some(Credit(bet.user_id, bet.bet_amount, Other));
        credited := chipsService.AddChips(bet.user_id, bet.bet_amount, Other, Some(betId), Some(BetReference), None,
                                          procedureAccepts, now);
      } else {
        assert credit.None?;
      }
      if credited.Err? {
        service.Restore(savedBets);
        chipsService.Restore(savedLedger);
        return Fail(credited.error);
      }
    }
  }
}

=== FILE: users.dfy ===
/** The user store, as far as the service touches it: an id and a wallet
    address per user, in the order the users were created. */
module Users {
  import opened Common

  datatype User = User(id: int, wallet_address: string)

  /** Some user holds `address`. */
  predicate AddressRegistered(users: seq<User>, address: string) {
    exists i :: 0 <= i < |users| && users[i].wallet_address == address
  }

  class UserService {
    var users: seq<User>

    /** Ids are numbered from 1 in creation order. */
    ghost predicate Valid()
      reads this
    {
      forall i :: 0 <= i < |users| ==> users[i].id == i + 1
    }

    constructor ()
      ensures Valid() && users == []
    {
      users := [];
    }

    /** `create`: stores the wallet address and nothing else. No check
        that the address is free is made here. */
    method Create(walletAddress: string) returns (r: Result<int>)
      requires Valid()
      modifies this
      ensures Valid()
      ensures walletAddress == "" ==> r == Err(MissingField(WalletAddress))
      ensures r.Ok? <==> walletAddress != ""
      ensures r.Err? ==> users == old(users)
      ensures r.Ok? ==> users == old(users) + [User(r.value, walletAddress)] && r.value == |old(users)| + 1
    {
      if walletAddress == "" {
        return Err(MissingField(WalletAddress));
      }
      r := Ok(|users| + 1);
      users := users + [User(|users| + 1, walletAddress)];
    }

    /** `fetch`: the user with that id, or null. */
    method Fetch(id: int) returns (r: Result<Option<User>>)
      requires Valid()
      ensures !IdGiven(id) ==> r == Err(MissingField(UserId))
      ensures r.Ok? <==> IdGiven(id)
      ensures r.Ok? ==> (r.value.Some? <==> exists i :: 0 <= i < |users| && users[i].id == id)
      ensures r.Ok? && r.value.Some? ==> r.value.value in users && r.value.value.id == id
    {
      if !IdGiven(id) {
        return Err(MissingField(UserId));
      }
      if 1 <= id <= |users| {
        r := Ok(Some(users[id - 1]));
      } else {
        r := Ok(None);
      }
    }

    /** `fetchByWalletAddress`: the first user holding the address, or
        null. */
    method FetchByWalletAddress(walletAddress: string) returns (r: Result<Option<User>>)
      ensures walletAddress == "" ==> r == Err(MissingField(WalletAddress))
      ensures r.Ok? <==> walletAddress != ""
      ensures r.Ok? ==> (r.value.Some? <==> AddressRegistered(users, walletAddress))
      ensures r.Ok? && r.value.Some? ==>
        exists i :: 0 <= i < |users| && users[i] == r.value.value && users[i].wallet_address == walletAddress
          && forall j :: 0 <= j < i ==> users[j].wallet_address != walletAddress
    {
      if walletAddress == "" {
        return Err(MissingField(WalletAddress));
      }
      var i := 0;
      while i < |users|
        invariant 0 <= i <= |users|
        invariant forall j :: 0 <= j < i ==> users[j].wallet_address != walletAddress
      {
        if users[i].wallet_address == walletAddress {
          return Ok(Some(users[i]));
        }
        i := i + 1;
      }
      r := Ok(None);
    }

    /** `update`: a new address is refused when any user already holds it,
        the user being updated included; an update without an address has
        nothing to write. */
    method Update(walletAddress: Option<string>, id: int) returns (r: Outcome)
      requires Valid()
      modifies this
      ensures Valid()
      ensures r.Pass? <==> TextGiven(walletAddress) && !AddressRegistered(old(users), walletAddress.value)
      ensures TextGiven(walletAddress) && AddressRegistered(old(users), walletAddress.value) ==> r == Fail(UserAlreadyExists)
      ensures !TextGiven(walletAddress) ==> r == Fail(NoValidDataFound)
      ensures r.Fail? || !(1 <= id <= |old(users)|) ==> users == old(users)
      ensures r.Pass? && 1 <= id <= |old(users)| ==>
        users == old(users)[id - 1 := User(id, walletAddress.value)]
    {
      var toUpdate: Option<string> := None;
      if TextGiven(walletAddress) {
        var holder := FetchByWalletAddress(walletAddress.value);
        if holder.Ok? && holder.value.Some? {
          return Fail(UserAlreadyExists);
        }
        toUpdate := walletAddress;
      }
      if toUpdate.None? {
        return Fail(NoValidDataFound);
      }
      if 1 <= id <= |users| {
        users := users[id - 1 := users[id - 1].(wallet_address := toUpdate.value)];
      }
      r := Pass;
    }
  }
}
